=== FILE: README.md ===
# EC3 concrete carbon comparison: the record-cleaning pipeline

The dashboard `ec3_app.py` queries the EC3 database for ready-mix concrete
products near a US postal code, then charts global warming potential (GWP)
against compressive strength. This project models the code between the
query and the charts:

- **PostalCode** models `is_valid_postal_code`. It accepts a five-character
  string that Python's `int()` accepts.
- **Records** models the conversion loop. Each record's 28-day compressive
  strength is split into value and unit and brought to psi. MPa is
  multiplied by 145.03773773, psi is kept and ksi is multiplied by 1000.
  The result is rounded to a multiple of 500 psi with Python's
  round-half-to-even. The GWP is read from the first word of its string.
  The plant owner's name is replaced by "Unknown" when it is falsy or not a
  str. A record with another strength unit is skipped. A record whose
  fields cannot be read raises, and the exception ends the loop; this is
  modelled as an `Err` result (KeyError, TypeError, AttributeError,
  IndexError, ValueError).
- **Outliers** models `remove_outliers`. For each named column in turn, it
  keeps the rows whose value is at most `mean + n_std * sd`. The mean and
  the sample standard deviation are recomputed on the frame left by the
  previous column.
- **App** models the glue at lines 170-171. The converted rows become a
  frame, and its GWP outliers beyond three standard deviations are removed.
- **PyValues**, **PyText** and **PyNumbers** model the parts of Python the
  core uses:
  - JSON values and dict subscripts;
  - `str.split()` and the whitespace stripping of `int()`/`float()`;
  - the `int()` and `float()` literal grammars over ASCII digits, with
    signs, underscores and exponents;
  - `round()`.

The conversion loop and the loop of `remove_outliers` are methods, each
proved to compute a specification function about which the properties
below are proved.

Numbers are exact reals, not IEEE doubles. The standard deviation is never
computed as a square root. Instead, a row passes when `(v - mean)^2` is
compared with `n_std^2 * variance`, on the correct side. `UpperBoundWithDeviation`
proves this is exactly `v <= mean + n_std * sd` for every `sd >= 0` whose
square is the variance.

The docstring of `remove_outliers` (ec3_app.py:26) speaks of values "more
than n_std standard deviations away from mean", but the filter at line 32
removes only rows above `mean + n_std * sd`. Rows far below the mean are
never removed (`Outliers.OutlierPassBound`). The model follows the code.

## Model

| member | source | states |
|---|---|---|
| PostalCode.IsValidPostalCode | ec3_app.py:37-44 | the validator: length 5 and `int()` accepts the string; an accepted string always has length 5, so every other length is rejected |
| PostalCode.FiveDigitsAccepted | ec3_app.py:40-42 | every five-character string of ASCII digits is accepted, and `int()` reads it as its decimal value |
| PostalCode.ForeignCharacterRejected | ec3_app.py:40-44 | a character that is no digit, underscore, sign or whitespace (a letter, as in "12a45") makes `int()` raise ValueError, so the code is rejected |
| PostalCode.ForeignCharacterNotInteger | ec3_app.py:41 | stripped text holding a character other than a digit, underscore or sign is no integer literal |
| PostalCode.InnerCharacterRejected | ec3_app.py:40-44 | in a string with no whitespace at its ends, a character after the first that is neither digit nor underscore makes `int()` fail, so the code is rejected |
| PostalCode.MisplacedUnderscoreRejected | ec3_app.py:40-44 | an underscore at an end, right after a sign, or doubled makes `int()` fail, so the code is rejected |
| PostalCode.AcceptedValueRange | ec3_app.py:37-42 | the value `int()` gives an accepted code lies between -9999 and 99999 |
| PostalCode.PaddedCodeRoundTrip | ec3_app.py:37-42 | every number below 100000 written as five zero-padded digits is accepted and reads back as that number |
| PostalCode.SignedDigitsAccepted | ec3_app.py:41 | `int()` accepts a sign followed by digits, and `-` negates the value |
| PostalCode.LeadingSpaceSkipped | ec3_app.py:41 | `int()` skips whitespace before the digits |
| PostalCode.TrailingSpaceSkipped | ec3_app.py:41 | `int()` skips whitespace after the digits |
| PostalCode.SignedCodeAccepted | ec3_app.py:37-42 | as written, "+dddd" and "-dddd" pass the validator although they are not five digits |
| PostalCode.SpacedCodeAccepted | ec3_app.py:37-42 | as written, four digits with one whitespace before or after pass the validator although they are not five digits |
| PostalCode.UnderscoreCodeAccepted | ec3_app.py:37-42 | as written, four digits with an underscore between two of them pass the validator although they are not five digits |
| PostalCode.IsValidFiveDigitCode | ec3_app.py:37-44 | corrected validator: exactly five digits; it implies the original check, a value in 0..99999, and a code equal to its value written back with zero padding |
| PostalCode.FiveDigitCodesArePaddedNumbers | ec3_app.py:37-44 | every number below 100000, zero-padded to five digits, passes the corrected validator and reads back as itself |
| PyValues.GetItem | ec3_app.py:159 | definition of the subscript `v[key]` on a decoded JSON value: the value under the key, KeyError when a dict lacks the key, TypeError when `v` is no dict |
| PyValues.AsStr | ec3_app.py:147 | definition of calling `.split()` on a JSON value: the text of a str, AttributeError for any other value |
| PyValues.IsTruthy | ec3_app.py:160 | definition of `not x` for a JSON value: None, False, 0, "", [] and {} are falsy, everything else truthy |
| PyNumbers.ParseInt | ec3_app.py:41 | definition of `int(s)` in base 10: the optionally signed digit part (underscores between digits) of the stripped text; None where `int()` raises ValueError. The PostalCode lemmas state what it accepts and rejects |
| PyNumbers.SignedInteger | ec3_app.py:41 | definition of CPython's integer literal in base 10 on already stripped text: an optional sign, then digits with single underscores between them |
| PyNumbers.SignedFloat | ec3_app.py:149-153 | definition of the finite float literal on already stripped text: an optional sign, then a mantissa and an optional exponent |
| PyNumbers.ParseFloat | ec3_app.py:149-153 | definition of `float(s)` for finite literals: the stripped text, an optional sign, a mantissa with an optional point and an optional exponent; None where `float()` raises ValueError |
| PyNumbers.RoundHalfEven | ec3_app.py:157 | Python's `round()`: the result is within one half of the input, and it is even on a tie |
| PyNumbers.RoundHalfEvenUnique | ec3_app.py:157 | `round()` is the only integer within one half of the input that is even whenever it is exactly one half away |
| PyNumbers.ParseFloatDecimal | ec3_app.py:149-153 | `float()` reads digits, a point and digits as the exact decimal they spell |
| PyNumbers.ParseFloatExtendsParseInt | ec3_app.py:149-153 | every string `int()` reads as n, `float()` reads as n |
| PyNumbers.SignedFloatExtendsSignedInteger | ec3_app.py:149-153 | every stripped integer literal is a float literal of the same value |
| PyNumbers.ParseFloatUnsigned | ec3_app.py:149-153 | without whitespace at either end and without a sign, `float()` reads the unsigned literal itself |
| PyNumbers.ParseIntUnspaced | ec3_app.py:41 | without whitespace at either end, `int()` reads the string itself |
| PyNumbers.DigitsInteger | ec3_app.py:41 | a string of digits is a signless integer literal worth its decimal value |
| PyNumbers.ShiftPointMultiplies | ec3_app.py:149-153 | moving the point of a mantissa right by an exponent multiplies it by that power of ten |
| PyNumbers.ShiftPointDivides | ec3_app.py:149-153 | moving the point of a mantissa left by an exponent divides it by that power of ten |
| PyText.Split | ec3_app.py:147 | `str.split()` yields non-empty words free of whitespace, and the words put together are exactly the characters of the string that are not whitespace, in order |
| PyText.IsSpace | ec3_app.py:147 | definition of `str.isspace()`, the characters `split()` separates on: the ASCII controls U+0009..U+000D and U+001C..U+001F, the space, U+0085, U+00A0 and the Unicode space separators |
| PyText.IsNumberSpace | ec3_app.py:41 | definition of the whitespace `int()` and `float()` strip from their argument: every `str.isspace()` character except U+001C..U+001F, which the numeric parsers do not skip |
| PyText.SplitJoin | ec3_app.py:147 | splitting words joined by single spaces gives the words back |
| PyText.Strip | ec3_app.py:41 | the text `int()` and `float()` parse: no longer than the argument, and neither starting nor ending with whitespace |
| PyText.StripShape | ec3_app.py:41 | the text `int()` parses is an infix of its argument, character by character, and only whitespace lies outside it |
| PyText.StripKeepsNonSpace | ec3_app.py:41 | every non-space character of the argument lies inside the stripped text, shifted by the leading whitespace |
| PyText.StripHoldsNonSpace | ec3_app.py:41 | the stripped text holds every non-space character of the argument |
| Records.RoundToBucket | ec3_app.py:157 | the rounded strength is a multiple of 500 within 250 psi of the converted value; on a tie it is an even multiple of 500 |
| Records.NearestBucket | ec3_app.py:157 | no multiple of 500 lies nearer to the converted strength than its bucket |
| Records.BucketOfMultiple | ec3_app.py:157 | a strength that is already a multiple of 500 stays unchanged |
| Records.IsKnownUnit | ec3_app.py:148-155 | definition of the units the if/elif chain converts: "MPa", "psi" and "ksi"; any other unit takes the `continue` branch |
| Records.StrengthTokens | ec3_app.py:147 | definition of `rec["concrete_compressive_strength_28d"].split()`, or the KeyError, TypeError or AttributeError on the way |
| Records.FloatOf | ec3_app.py:149-153 | definition of `float()` as a statement: the value, or ValueError |
| Records.ToPsi | ec3_app.py:148-153 | definition of the unit conversion: value * 145.03773773 for MPa, value for psi, value * 1000 for ksi |
| Records.OwnerName | ec3_app.py:159 | definition of `rec["plant_or_group"]["owned_by"]["name"]`, or the exception the first failing subscript raises |
| Records.GwpValue | ec3_app.py:166 | definition of `float(rec["gwp"].split()[0])`, with IndexError for a blank string; `Records.GwpDecimal` states how it reads a decimal |
| Records.PlantName | ec3_app.py:159-163 | the lookup `rec["plant_or_group"]["owned_by"]["name"]` raises exactly when the label does, with the same exception. A non-empty str name is the label unchanged; a falsy or non-str name becomes "Unknown". The label is never empty |
| Records.ConvertOne | ec3_app.py:146-167 | one loop pass. The record is skipped exactly when its strength has at least two words and the unit is not MPa, psi or ksi. It yields a row exactly when the unit is known and the strength value, plant and GWP can all be read. The row's strength is the bucket `RoundToBucket` gives for value, value*1000 or value*145.03773773 (psi, ksi, MPa), so "3750 psi" gives 4000. It is a multiple of 500 within 250 psi of the converted value. Its GWP and plant are those the record gives |
| Records.ConvertRecord | ec3_app.py:146-168 | the loop body as statements (if/elif on the unit, `continue` as None) computes exactly the pass's outcome |
| Records.ConvertRecords | ec3_app.py:144-168 | the loop over all records returns exactly the converted rows, or the first exception |
| Records.ConvertedRows | ec3_app.py:144-168 | the rows are, in order (at increasing record positions), the conversions of the records at those positions. There are no more rows than records. Every record not converted was skipped for its unit. Every strength is a multiple of 500 |
| Records.Collect | ec3_app.py:144-168 | at most one row per pass: the rows of the passes that gave one, in order, or the exception of the first pass that raised |
| Records.Converted | ec3_app.py:144-168 | definition of the loop's outcome: the rows of the passes that gave one, in order, or the first pass's exception; `Records.ConvertRecords` computes it and `Records.ConvertedRows` and `Records.CollectRows` state its properties |
| Records.FirstErrorEndsLoop | ec3_app.py:144-168 | a record that raises after the records before it went through ends the loop with its exception |
| Records.CollectStep | ec3_app.py:144-168 | one more record after a clean prefix: if it raises, the loop ends with its exception; if it is skipped (`continue`), the rows stay; otherwise its row is appended |
| Records.CollectOkIff | ec3_app.py:144-168 | the loop finishes exactly when no record raises |
| Records.CollectAppend | ec3_app.py:144-168 | the loop over two batches of records equals the loop over the first batch followed by the second |
| Records.CollectAllSkipped | ec3_app.py:144-168 | when every record is skipped for its unit, no row is produced |
| Records.CollectRows | ec3_app.py:144-168 | a finished loop's rows are the rows of the kept passes, in order, and every other pass skipped its record |
| Records.KeptIndicesOrdered | ec3_app.py:144-168 | the kept positions increase, and they are exactly the records that gave a row |
| Records.GwpDecimal | ec3_app.py:166 | a GWP string "w.f unit" is read as the decimal w.f, whatever the unit |
| Outliers.ColumnIndex | ec3_app.py:28 | the position of a column label, or the label count when it is missing |
| Outliers.ColumnValues | ec3_app.py:29-30 | a column's values exist exactly when all its cells are numbers, and they are those numbers in row order |
| Outliers.Mean | ec3_app.py:29 | definition of `df[col].mean()`: the sum of the values over their count |
| Outliers.WithinUpperBound | ec3_app.py:32 | definition of the row test `value <= mean + k * sd` without a square root; `Outliers.UpperBoundWithDeviation` proves it equal to that test |
| Outliers.KeepRows | ec3_app.py:32 | definition of `df[mask]`: the rows whose value passes, in order; `Outliers.KeepRowsAtPositions` and `Outliers.PassingPositionsOrdered` state which |
| Outliers.SampleVariance | ec3_app.py:30 | the variance with one degree of freedom, whose square root `std()` gives, is non-negative |
| Outliers.UpperBoundWithDeviation | ec3_app.py:32 | the squared test decides exactly `v <= mean + k * sd` for every `sd >= 0` |
| Outliers.OutlierPass | ec3_app.py:28-32 | one column's pass keeps the labels and a well-formed frame; a missing label raises KeyError |
| Outliers.OutlierPassRows | ec3_app.py:29-32 | a pass keeps a subsequence of the rows, in order. It keeps exactly the rows whose value passes the bound. With fewer than two rows, `std()` is NaN and no row is kept |
| Outliers.OutlierPassPositions | ec3_app.py:29-32 | position by position, the kept rows are the rows at the increasing positions whose value passes the bound, and only those; equal rows are kept or dropped together, as often as they occur |
| Outliers.PassingPositionsOrdered | ec3_app.py:32 | the positions the row mask selects increase, and a position is selected exactly when its value passes |
| Outliers.KeepRowsAtPositions | ec3_app.py:32 | the masked frame holds, one for one, the rows at the selected positions |
| Outliers.PassSurvivorsWithin | ec3_app.py:29-32 | every row a pass keeps has the frame's width and a number within the bound of the column's values |
| Outliers.OutlierPassBound | ec3_app.py:29-32 | every kept row has a value at most `mean + k * sd`; with `k >= 0`, no row at or below the mean is removed |
| Outliers.OutlierPassKeepsSomeRow | ec3_app.py:29-32 | with `k >= 0` and at least two rows, some row (one at or below the mean) survives |
| Outliers.AfterPasses | ec3_app.py:28-32 | the frame after the passes over the names, in order, keeps its labels and stays well-formed |
| Outliers.FirstPassErrorEndsLoop | ec3_app.py:28-32 | a pass that raises ends the loop with its exception |
| Outliers.AfterPassesSubsequence | ec3_app.py:28-32 | after any number of passes, the rows left are a subsequence of the original rows |
| Outliers.FirstMissing | ec3_app.py:28 | the position of the first name that is no column label, or the name count |
| Outliers.RemoveOutliersSpec | ec3_app.py:24-34 | definition of `remove_outliers`: KeyError for the first name that is no label, otherwise the passes in order; `Outliers.RemoveOutliersResult` states its properties |
| Outliers.RemoveOutliersResult | ec3_app.py:24-34 | `remove_outliers` raises KeyError when a name is no column label. When every name is a label, the only exception is TypeError (a column of strings). Otherwise it returns a frame with the same labels and a subsequence of the rows, and every row left passed each column's bound as computed on the frame the earlier columns left |
| Outliers.LaterPassesSubsequence | ec3_app.py:28-32 | when all passes go through, so do the first ones, and the rows left at the end are a subsequence of the rows the first passes left |
| Outliers.AfterPassesError | ec3_app.py:28-32 | when every name is a label, a pass can only raise TypeError |
| Outliers.SurvivorPassedColumn | ec3_app.py:28-32 | a row left at the end passed the bound of each named column, computed on the frame left before that column's pass |
| Outliers.RemoveOutliers | ec3_app.py:24-34 | the loop that rebinds `df` after each column's pass computes exactly the specified result |
| App.FrameOfRows | ec3_app.py:170 | the frame of converted rows has the three labels, at positions 0, 1 and 2, and one row per record whose cells are that record's strength, GWP and plant under their labels |
| App.ToFrame | ec3_app.py:170 | `pd.DataFrame(converted_records)` has no column labels exactly when there are no records; otherwise it is the frame of converted rows, with its labels and cells |
| App.RowColumnPositions | ec3_app.py:170 | the three labels are distinct, so strength, GWP and plant are found at positions 0, 1 and 2 |
| App.CleanRows | ec3_app.py:170-171 | definition of the glue after conversion: `remove_outliers(pd.DataFrame(rows), 3, ["GWP [kgCO2e]"])` |
| App.CleanData | ec3_app.py:144-171 | definition of the data the charts are drawn from: conversion, then `App.CleanRows`, or the first exception |
| App.CleanRecords | ec3_app.py:170-171 | conversion, frame building and outlier removal compute exactly the specified cleaned data |
| App.CleanRowsIsGwpPass | ec3_app.py:170-171 | for at least one row, the cleaning is a single pass over the GWP column, whose values are the rows' GWPs |
| App.Gwps | ec3_app.py:166 | definition of the rows' GWPs, in order; `App.GwpsIsColumn` proves they are the frame's GWP column |
| App.GwpsIsColumn | ec3_app.py:166-170 | for any converted rows, the values of the frame's GWP column are the rows' GWPs, in order |
| App.CleanRowsKept | ec3_app.py:170-171 | with two rows or more, the cleaned frame keeps the three labels and a subsequence of the rows, each with a GWP within the three-deviation bound of all GWPs |
| App.CleanRowsKeepsSomeRow | ec3_app.py:170-171 | with two rows or more, some row is always left to chart |
| App.CleanRowsDropsLoneRow | ec3_app.py:170-171 | a single converted row is dropped, because its standard deviation is NaN |
| App.NoRowsRaisesKeyError | ec3_app.py:144-171 | as written, when no record is converted, the frame has no "GWP [kgCO2e]" column and the outlier removal raises KeyError |
| App.CleanDataWithColumns | ec3_app.py:170-171 | corrected glue: with no converted record the result is an empty frame with the three labels; otherwise it is the same as the original |
| App.NoRowsNoOutliers | ec3_app.py:171 | an empty frame with the three labels passes through the outlier removal unchanged |

## Left out

- The Streamlit page is not part of this model: form, widgets, `st.stop`, secrets, image, markdown. Neither is `streamlit_chart_container.py`.
- `load_mat_data` and the EC3 query are not modelled. The records are a parameter, a sequence of JSON values.
- The Plotly charts, the treemap `groupby` and the record count shown above the chart are not modelled.
- IEEE doubles: every number is an exact real. The MPa product, the mean, the variance, the division by 500 and the comparison are not rounded to binary64.
- `float()` of "inf", "nan" and their variants is modelled as ValueError. Python reads them as infinite or NaN values. Such a strength makes `round()` raise OverflowError or ValueError, and such a GWP is carried into the frame as a non-finite number. The model raises ValueError at `float()` instead.
- Unicode decimal digits other than ASCII 0-9 are not modelled. `int()` and `float()` accept them, but the model rejects them.
- Outliers.RemoveOutliersSpec: when several names are missing, pandas' KeyError message lists all of them. The model reports the first missing name.
- Outliers.RemoveOutliers: frames with duplicate column labels are excluded by its precondition (`WellFormed`). The dashboard's frames always have three distinct labels.
- Outliers.ColumnValues: `mean()` of a column holding strings is modelled as TypeError. Numeric columns are the only ones the dashboard passes.
- Records.ConvertOne: a strength whose literal or psi value exceeds the binary64 range ("1e400 psi", or "1e306 ksi" once multiplied by 1000) is infinite in Python, and `round()` raises OverflowError and ends the loop. With exact reals the model converts it to a row with a very large bucket, and there is no OverflowError. Within the binary64 range, `int(round(...) * 500.0)` gives an unbounded Python int, as the model's `int` does.

## Findings

| source | as written | input that shows it | evidently intended | confidence | as-written member | corrected member |
|---|---|---|---|---|---|---|
| ec3_app.py:37-44 | a code is valid when it has five characters and `int()` accepts it | "+1234", "-1234", " 1234", "1234 " and "1_234" are all accepted | exactly five digits, as the warning at line 104 asks ("a 5-digit code with integers only") | not executed | PostalCode.SignedCodeAccepted | PostalCode.IsValidFiveDigitCode |
| ec3_app.py:170-171 | `pd.DataFrame(converted_records)` is built without column labels | no record returned, or every record in an unknown unit: the frame has no "GWP [kgCO2e]" column and `remove_outliers` raises KeyError | an empty frame with the three columns, charted as zero materials | not executed | App.NoRowsRaisesKeyError | App.CleanDataWithColumns |

=== FILE: app.dfy ===
/**
 * The glue after the conversion loop: the converted rows become a data
 * frame with the columns "Compressive Strength [psi]", "GWP [kgCO2e]" and
 * "Plant", and the GWP outliers more than three standard deviations above
 * the mean are removed before the charts are drawn.
 */
module App {
  import opened PyValues
  import opened Records
  import opened Outliers

  const STRENGTH_COLUMN := "Compressive Strength [psi]"
  const GWP_COLUMN := "GWP [kgCO2e]"
  const PLANT_COLUMN := "Plant"

  /** The labels of a frame built from converted rows, in the order the rows set them. */
  const ROW_COLUMNS := [STRENGTH_COLUMN, GWP_COLUMN, PLANT_COLUMN]

  /** `n_std` as the dashboard passes it. */
  const N_STD: real := 3.0

  /** The cells of one converted row, in column order. */
  function RowCells(row: Row): seq<Cell> {
    [Num(row.strength as real), Num(row.gwp), Text(row.plant)]
  }

  /**
   * A frame with the columns of converted rows and one row of cells per row:
   * each row's strength, GWP and plant sit under their own labels.
   */
  function FrameOfRows(rows: seq<Row>): (f: Frame)
    ensures WellFormed(f) && f.columns == ROW_COLUMNS && |f.rows| == |rows|
    ensures ColumnIndex(f.columns, STRENGTH_COLUMN) == 0
         && ColumnIndex(f.columns, GWP_COLUMN) == 1
         && ColumnIndex(f.columns, PLANT_COLUMN) == 2
    ensures forall j | 0 <= j < |rows| ::
      f.rows[j][0] == Num(rows[j].strength as real)
      && f.rows[j][1] == Num(rows[j].gwp)
      && f.rows[j][2] == Text(rows[j].plant)
  {
    RowColumnPositions();
    Frame(ROW_COLUMNS, seq(|rows|, j requires 0 <= j < |rows| => RowCells(rows[j])))
  }

  /** The three labels are distinct, so each is found at its own position. */
  lemma RowColumnPositions()
    ensures ColumnIndex(ROW_COLUMNS, STRENGTH_COLUMN) == 0
    ensures ColumnIndex(ROW_COLUMNS, GWP_COLUMN) == 1
    ensures ColumnIndex(ROW_COLUMNS, PLANT_COLUMN) == 2
  {
    assert STRENGTH_COLUMN[0] != GWP_COLUMN[0] && STRENGTH_COLUMN[0] != PLANT_COLUMN[0];
    assert GWP_COLUMN[0] != PLANT_COLUMN[0];
    var rest := ROW_COLUMNS[1..];
    assert rest == [GWP_COLUMN, PLANT_COLUMN] && rest[1..] == [PLANT_COLUMN];
    assert ColumnIndex(rest[1..], PLANT_COLUMN) == 0;
    assert ColumnIndex(rest, PLANT_COLUMN) == 1;
    assert ColumnIndex(rest, GWP_COLUMN) == 0;
  }

  /**
   * `pd.DataFrame(converted_records)`: a list of no records gives a frame
   * with no columns at all.
   */
  function ToFrame(rows: seq<Row>): (f: Frame)
    ensures WellFormed(f) && |f.rows| == |rows|
    ensures rows == [] <==> f.columns == []
    ensures rows != [] ==> f == FrameOfRows(rows)
  {
    if rows == [] then Frame([], []) else FrameOfRows(rows)
  }

  /** `remove_outliers(pd.DataFrame(rows), 3, ["GWP [kgCO2e]"])`. */
  function CleanRows(rows: seq<Row>): Result<Frame> {
    RemoveOutliersSpec(ToFrame(rows), N_STD, [GWP_COLUMN])
  }

  /** The data the charts are drawn from, or the exception raised on the way. */
  function CleanData(matRecords: seq<Json>): Result<Frame> {
    var rows :- Converted(matRecords);
    CleanRows(rows)
  }

  /** Conversion, the frame, and the outlier removal, in the dashboard's order. */
  method CleanRecords(matRecords: seq<Json>) returns (res: Result<Frame>)
    ensures res == CleanData(matRecords)
  {
    var convertedRecords :- ConvertRecords(matRecords);
    var df := ToFrame(convertedRecords);
    res := RemoveOutliers(df, N_STD, [GWP_COLUMN]);
  }

  /**
   * For rows that exist, the outlier removal is one pass over the GWP, the
   * second column, whose values are the rows' GWPs.
   */
  lemma CleanRowsIsGwpPass(rows: seq<Row>)
    requires rows != []
    ensures CleanRows(rows) == OutlierPass(FrameOfRows(rows), GWP_COLUMN, N_STD)
    ensures ColumnIndex(ROW_COLUMNS, GWP_COLUMN) == 1
    ensures ColumnValues(FrameOfRows(rows).rows, 1) == Ok(Gwps(rows))
    ensures CleanRows(rows).Ok?
  {
    var f := FrameOfRows(rows);
    assert ROW_COLUMNS[0] != GWP_COLUMN && ROW_COLUMNS[1] == GWP_COLUMN;
    assert ROW_COLUMNS[1..][0] == GWP_COLUMN;
    assert GWP_COLUMN in f.columns;
    assert FirstMissing(f.columns, [GWP_COLUMN]) == 1;
    assert [GWP_COLUMN][..0] == [];
    assert AfterPasses(f, N_STD, [GWP_COLUMN]) == OutlierPass(f, GWP_COLUMN, N_STD);
    assert ToFrame(rows) == f;
    var values := ColumnValues(f.rows, 1).value;
    assert values == Gwps(rows);
  }

  /**
   * The cleaned data keeps the three columns and some of the converted rows
   * in their order; every row left has a GWP at most three standard
   * deviations above the mean of all the GWPs.
   */
  lemma CleanRowsKept(rows: seq<Row>)
    requires |rows| >= 2
    ensures CleanRows(rows).Ok? && CleanRows(rows).value.columns == ROW_COLUMNS
    ensures IsSubsequence(CleanRows(rows).value.rows, FrameOfRows(rows).rows)
    ensures forall row: seq<Cell> | row in CleanRows(rows).value.rows ::
      |row| == 3 && row[1].Num? && WithinUpperBound(row[1].x, Mean(Gwps(rows)), SampleVariance(Gwps(rows)), N_STD)
  {
    var f := FrameOfRows(rows);
    CleanRowsIsGwpPass(rows);
    OutlierPassRows(f, GWP_COLUMN, N_STD);
    PassSurvivorsWithin(f, GWP_COLUMN, N_STD, 1, Gwps(rows));
  }

  /** The GWPs of the converted rows, in order. */
  function Gwps(rows: seq<Row>): (xs: seq<real>)
    ensures |xs| == |rows| && forall j | 0 <= j < |rows| :: xs[j] == rows[j].gwp
  {
    seq(|rows|, j requires 0 <= j < |rows| => rows[j].gwp)
  }

  /** For any rows, their GWPs are the values of the frame's second column. */
  lemma GwpsIsColumn(rows: seq<Row>)
    ensures ColumnValues(FrameOfRows(rows).rows, 1) == Ok(Gwps(rows))
  {
    if rows != [] {
      CleanRowsIsGwpPass(rows);
    }
  }

  /**
   * With two converted rows or more, some row is always left to chart: one
   * whose GWP is at most the mean.
   */
  lemma CleanRowsKeepsSomeRow(rows: seq<Row>)
    requires |rows| >= 2
    ensures CleanRows(rows).Ok? && CleanRows(rows).value.rows != []
  {
    CleanRowsIsGwpPass(rows);
    OutlierPassKeepsSomeRow(FrameOfRows(rows), GWP_COLUMN, N_STD);
  }

  /** A single converted row is dropped: its standard deviation is NaN. */
  lemma CleanRowsDropsLoneRow(rows: seq<Row>)
    requires |rows| == 1
    ensures CleanRows(rows) == Ok(Frame(ROW_COLUMNS, []))
  {
    CleanRowsIsGwpPass(rows);
  }

  /**
   * When the query returns no records, or every record is skipped for its
   * unit, the frame has no "GWP [kgCO2e]" column and `remove_outliers`
   * raises KeyError.
   */
  lemma NoRowsRaisesKeyError(matRecords: seq<Json>)
    requires forall j | 0 <= j < |matRecords| :: ConvertOne(matRecords[j]) == Ok(None)
    ensures CleanData(matRecords) == Err(KeyError(GWP_COLUMN))
  {
    CollectAllSkipped(Passes(matRecords));
  }

  /**
   * The data the dashboard evidently means to chart: the frame is built
   * with its three column labels given, so that they are present even when
   * no row was converted.
   */
  function CleanDataWithColumns(matRecords: seq<Json>): (r: Result<Frame>)
    ensures Converted(matRecords) == Ok([]) ==> r == Ok(Frame(ROW_COLUMNS, []))
    ensures Converted(matRecords) != Ok([]) ==> r == CleanData(matRecords)
  {
    var rows :- Converted(matRecords);
    NoRowsNoOutliers();
    RemoveOutliersSpec(FrameOfRows(rows), N_STD, [GWP_COLUMN])
  }

  /** A frame with the three columns and no row goes through the outlier removal unchanged. */
  lemma NoRowsNoOutliers()
    ensures RemoveOutliersSpec(FrameOfRows([]), N_STD, [GWP_COLUMN]) == Ok(Frame(ROW_COLUMNS, []))
  {
    var f := FrameOfRows([]);
    assert ROW_COLUMNS[0] != GWP_COLUMN && ROW_COLUMNS[1] == GWP_COLUMN;
    assert FirstMissing(f.columns, [GWP_COLUMN]) == 1;
    assert [GWP_COLUMN][..0] == [];
    assert AfterPasses(f, N_STD, [GWP_COLUMN]) == OutlierPass(f, GWP_COLUMN, N_STD);
    assert ColumnValues(f.rows, 1) == Ok([]);
  }
}

=== FILE: outliers.dfy ===
/**
 * `remove_outliers`: for each named column in turn, drop the rows whose
 * value lies more than `n_std` sample standard deviations above the column's
 * mean, the mean and deviation being taken over the rows still left.
 *
 * A data frame is a list of column labels and a list of rows of cells. The
 * bound `value <= mean + n_std * sd` is decided without a square root, from
 * the sample variance; `UpperBoundWithDeviation` shows that this is the same
 * test for the standard deviation `sd`.
 */
module Outliers {
  import opened PyValues

  /** A data frame cell: a number, or a str in a column of dtype object. */
  datatype Cell = Num(x: real) | Text(s: string)

  /** A pandas DataFrame: column labels and rows of cells, row order kept. */
  datatype Frame = Frame(columns: seq<string>, rows: seq<seq<Cell>>)

  /** Distinct column labels and one cell per column in every row. */
  predicate WellFormed(f: Frame) {
    (forall i, j | 0 <= i < j < |f.columns| :: f.columns[i] != f.columns[j])
    && forall r | 0 <= r < |f.rows| :: |f.rows[r]| == |f.columns|
  }

  /** The position of the first column labelled `name`, or `|columns|` when there is none. */
  function ColumnIndex(columns: seq<string>, name: string): (i: nat)
    ensures i <= |columns|
    ensures i < |columns| ==> columns[i] == name
    ensures forall k | 0 <= k < i :: columns[k] != name
  {
    if columns == [] then 0
    else if columns[0] == name then 0
    else 1 + ColumnIndex(columns[1..], name)
  }

  /**
   * The values of column `i` as numbers, or TypeError when it holds a str,
   * as pandas raises when asked for the mean of such a column.
   */
  function ColumnValues(rows: seq<seq<Cell>>, i: nat): (r: Result<seq<real>>)
    requires forall k | 0 <= k < |rows| :: i < |rows[k]|
    ensures r.Ok? <==> forall k | 0 <= k < |rows| :: rows[k][i].Num?
    ensures r.Ok? ==> |r.value| == |rows| && forall k | 0 <= k < |rows| :: r.value[k] == rows[k][i].x
    ensures r.Err? ==> r.error == TypeError
  {
    if rows == [] then Ok([])
    else
      var front :- ColumnValues(rows[..|rows| - 1], i);
      var cell := rows[|rows| - 1][i];
      if cell.Text? then Err(TypeError) else Ok(front + [cell.x])
  }

  function Sum(xs: seq<real>): real {
    if xs == [] then 0.0 else Sum(xs[..|xs| - 1]) + xs[|xs| - 1]
  }

  /** `Series.mean()`. */
  function Mean(xs: seq<real>): real
    requires xs != []
  {
    Sum(xs) / |xs| as real
  }

  /** The sum of the squared distances of `xs` from `m`. */
  function SquaredDeviations(xs: seq<real>, m: real): (r: real)
    ensures r >= 0.0
  {
    if xs == [] then 0.0
    else
      var d := xs[|xs| - 1] - m;
      SquaredDeviations(xs[..|xs| - 1], m) + d * d
  }

  /** `Series.var()` with pandas' default of one degree of freedom, the square of `Series.std()`. */
  function SampleVariance(xs: seq<real>): (v: real)
    requires |xs| >= 2
    ensures v >= 0.0
  {
    SquaredDeviations(xs, Mean(xs)) / (|xs| - 1) as real
  }

  /**
   * `v <= mean + k * sd` for the standard deviation `sd` whose square is
   * `variance`, decided by comparing squares.
   */
  predicate WithinUpperBound(v: real, mean: real, variance: real, k: real) {
    var d := v - mean;
    if k >= 0.0 then d <= 0.0 || d * d <= k * k * variance
    else d <= 0.0 && d * d >= k * k * variance
  }

  /** The row test `value <= mean + k * sd` as a mask over a column's values. */
  function UpperBound(mean: real, variance: real, k: real): real -> bool {
    v => WithinUpperBound(v, mean, variance, k)
  }

  lemma PositiveProduct(x: real, y: real)
    requires x > 0.0 && y > 0.0
    ensures x * y > 0.0
  {
  }

  /** Of two non-negative numbers, the smaller has the smaller square. */
  lemma SquaresOrdered(a: real, b: real)
    requires a >= 0.0 && b >= 0.0
    ensures a <= b <==> a * a <= b * b
  {
    if a < b {
      PositiveProduct(b - a, b + a);
      assert b * b - a * a == (b - a) * (b + a);
    } else if b < a {
      PositiveProduct(a - b, a + b);
      assert a * a - b * b == (a - b) * (a + b);
    }
  }

  /** The squared test is exactly `v <= mean + k * sd` for every standard deviation `sd`. */
  lemma UpperBoundWithDeviation(v: real, mean: real, sd: real, k: real)
    requires sd >= 0.0
    ensures WithinUpperBound(v, mean, sd * sd, k) <==> v <= mean + k * sd
  {
    var d := v - mean;
    var t := k * sd;
    assert k * k * (sd * sd) == t * t;
    if k >= 0.0 {
      assert t >= 0.0;
      if d > 0.0 {
        SquaresOrdered(d, t);
      }
    } else {
      assert t <= 0.0;
      if d <= 0.0 {
        SquaresOrdered(-t, -d);
        assert (-d) * (-d) == d * d && (-t) * (-t) == t * t;
      }
    }
  }

  /**
   * The rows whose value in column `i` satisfies the bound, in their order:
   * `df[df[col] <= mean + n_std * sd]`.
   */
  function KeepRows(rows: seq<seq<Cell>>, i: nat, keep: real -> bool): seq<seq<Cell>>
    requires forall r | 0 <= r < |rows| :: i < |rows[r]| && rows[r][i].Num?
  {
    if rows == [] then []
    else
      var last := rows[|rows| - 1];
      var kept := KeepRows(rows[..|rows| - 1], i, keep);
      if keep(last[i].x) then kept + [last] else kept
  }

  /** `a` is `b` with some elements deleted, the rest in their order. */
  predicate IsSubsequence<T(==)>(a: seq<T>, b: seq<T>)
    decreases |b|
  {
    a == [] ||
    (b != [] &&
      ((a[|a| - 1] == b[|b| - 1] && IsSubsequence(a[..|a| - 1], b[..|b| - 1]))
       || IsSubsequence(a, b[..|b| - 1])))
  }

  lemma {:induction false} SubsequenceOfItself<T>(a: seq<T>)
    ensures IsSubsequence(a, a)
  {
    if a != [] {
      SubsequenceOfItself(a[..|a| - 1]);
    }
  }

  lemma {:induction false} SubsequenceTransitive<T>(a: seq<T>, b: seq<T>, c: seq<T>)
    requires IsSubsequence(a, b) && IsSubsequence(b, c)
    ensures IsSubsequence(a, c)
    decreases |c|
  {
    if a != [] && b != [] {
      var c' := c[..|c| - 1];
      if IsSubsequence(b, c') {
        SubsequenceTransitive(a, b, c');
      } else if a[|a| - 1] == b[|b| - 1] && IsSubsequence(a[..|a| - 1], b[..|b| - 1]) {
        SubsequenceTransitive(a[..|a| - 1], b[..|b| - 1], c');
      } else {
        SubsequenceTransitive(a, b[..|b| - 1], c');
      }
    }
  }

  /** Keeping rows deletes some of them and keeps the others in their order. */
  lemma {:induction false} KeepRowsSubsequence(rows: seq<seq<Cell>>, i: nat, keep: real -> bool)
    requires forall r | 0 <= r < |rows| :: i < |rows[r]| && rows[r][i].Num?
    ensures IsSubsequence(KeepRows(rows, i, keep), rows)
  {
    if rows != [] {
      var front := rows[..|rows| - 1];
      var last := rows[|rows| - 1];
      var kept := KeepRows(front, i, keep);
      KeepRowsSubsequence(front, i, keep);
      assert rows[..|rows| - 1] == front;
      if keep(last[i].x) {
        var a := kept + [last];
        assert a[..|a| - 1] == kept && a[|a| - 1] == last;
      }
    }
  }

  /** Every row kept passes the bound. */
  lemma {:induction false} KeptRowsWithin(rows: seq<seq<Cell>>, i: nat, keep: real -> bool)
    requires forall r | 0 <= r < |rows| :: i < |rows[r]| && rows[r][i].Num?
    ensures forall row: seq<Cell> | row in KeepRows(rows, i, keep) ::
      i < |row| && row[i].Num? && keep(row[i].x)
  {
    if rows != [] {
      KeptRowsWithin(rows[..|rows| - 1], i, keep);
    }
  }

  /** Keeping rows keeps their width. */
  lemma {:induction false} KeepRowsWidth(rows: seq<seq<Cell>>, i: nat, keep: real -> bool, width: nat)
    requires forall r | 0 <= r < |rows| :: i < |rows[r]| && rows[r][i].Num?
    requires forall r | 0 <= r < |rows| :: |rows[r]| == width
    ensures forall r | 0 <= r < |KeepRows(rows, i, keep)| :: |KeepRows(rows, i, keep)[r]| == width
  {
    if rows != [] {
      var front := rows[..|rows| - 1];
      var last := rows[|rows| - 1];
      KeepRowsWidth(front, i, keep, width);
      var kept := KeepRows(rows, i, keep);
      forall r | 0 <= r < |kept| ensures |kept[r]| == width {
        if r < |KeepRows(front, i, keep)| {
          assert kept[r] == KeepRows(front, i, keep)[r];
        } else {
          assert kept[r] == last;
        }
      }
    }
  }

  /** Every row that passes the bound is kept. */
  lemma {:induction false} RowsWithinKept(rows: seq<seq<Cell>>, i: nat, keep: real -> bool)
    requires forall r | 0 <= r < |rows| :: i < |rows[r]| && rows[r][i].Num?
    ensures forall r | 0 <= r < |rows| && keep(rows[r][i].x) ::
      rows[r] in KeepRows(rows, i, keep)
  {
    if rows != [] {
      var front := rows[..|rows| - 1];
      RowsWithinKept(front, i, keep);
      assert forall r | 0 <= r < |front| :: front[r] == rows[r];
    }
  }

  /** The positions of the rows whose value in column `i` passes the bound. */
  function PassingPositions(rows: seq<seq<Cell>>, i: nat, keep: real -> bool): (pos: seq<nat>)
    requires forall r | 0 <= r < |rows| :: i < |rows[r]| && rows[r][i].Num?
    ensures forall m | 0 <= m < |pos| :: pos[m] < |rows|
  {
    if rows == [] then []
    else
      var last := |rows| - 1;
      var front := PassingPositions(rows[..last], i, keep);
      if keep(rows[last][i].x) then front + [last] else front
  }

  /** The passing positions increase, and they are exactly the rows that pass the bound. */
  lemma {:induction false} PassingPositionsOrdered(rows: seq<seq<Cell>>, i: nat, keep: real -> bool)
    requires forall r | 0 <= r < |rows| :: i < |rows[r]| && rows[r][i].Num?
    ensures forall m, n | 0 <= m < n < |PassingPositions(rows, i, keep)| ::
      PassingPositions(rows, i, keep)[m] < PassingPositions(rows, i, keep)[n]
    ensures forall r | 0 <= r < |rows| :: keep(rows[r][i].x) <==> r in PassingPositions(rows, i, keep)
  {
    if rows != [] {
      var last := |rows| - 1;
      PassingPositionsOrdered(rows[..last], i, keep);
      assert forall r | 0 <= r < last :: rows[..last][r] == rows[r];
    }
  }

  /** The kept rows are, one for one, the rows at the passing positions. */
  lemma {:induction false} KeepRowsAtPositions(rows: seq<seq<Cell>>, i: nat, keep: real -> bool)
    requires forall r | 0 <= r < |rows| :: i < |rows[r]| && rows[r][i].Num?
    ensures |KeepRows(rows, i, keep)| == |PassingPositions(rows, i, keep)|
    ensures forall m | 0 <= m < |KeepRows(rows, i, keep)| ::
      KeepRows(rows, i, keep)[m] == rows[PassingPositions(rows, i, keep)[m]]
  {
    if rows != [] {
      var last := |rows| - 1;
      var front := rows[..last];
      KeepRowsAtPositions(front, i, keep);
      var kept := KeepRows(rows, i, keep);
      var pos := PassingPositions(rows, i, keep);
      var frontKept := KeepRows(front, i, keep);
      var frontPos := PassingPositions(front, i, keep);
      forall m | 0 <= m < |kept| ensures kept[m] == rows[pos[m]] {
        if m < |frontKept| {
          assert kept[m] == frontKept[m] && pos[m] == frontPos[m];
          assert front[frontPos[m]] == rows[frontPos[m]];
        } else {
          assert kept[m] == rows[last] && pos[m] == last;
        }
      }
    }
  }

  /** Every element of a subsequence is an element of the sequence. */
  lemma {:induction false} SubsequenceMembers<T>(a: seq<T>, b: seq<T>, x: T)
    requires IsSubsequence(a, b) && x in a
    ensures x in b
    decreases |b|
  {
    var b' := b[..|b| - 1];
    if IsSubsequence(a, b') {
      SubsequenceMembers(a, b', x);
    } else if x != a[|a| - 1] {
      assert a == a[..|a| - 1] + [a[|a| - 1]];
      SubsequenceMembers(a[..|a| - 1], b', x);
    }
  }

  /**
   * One pass of the loop for column `col`: the mean and the standard
   * deviation of the column over the current rows, then the rows within
   * `k` deviations above the mean. With fewer than two rows the deviation
   * is NaN, no comparison holds, and no row is left.
   */
  function OutlierPass(f: Frame, col: string, k: real): (r: Result<Frame>)
    requires WellFormed(f)
    ensures r.Ok? ==> r.value.columns == f.columns && WellFormed(r.value)
    ensures ColumnIndex(f.columns, col) == |f.columns| ==> r == Err(KeyError(col))
  {
    var i := ColumnIndex(f.columns, col);
    if i == |f.columns| then Err(KeyError(col))
    else
      var values :- ColumnValues(f.rows, i);
      if |values| < 2 then Ok(Frame(f.columns, []))
      else
        KeepRowsWidth(f.rows, i, UpperBound(Mean(values), SampleVariance(values), k), |f.columns|);
        Ok(Frame(f.columns, KeepRows(f.rows, i, UpperBound(Mean(values), SampleVariance(values), k))))
  }

  /** The frame after the passes for `names`, in order, or the first exception. */
  function AfterPasses(f: Frame, k: real, names: seq<string>): (r: Result<Frame>)
    requires WellFormed(f)
    ensures r.Ok? ==> r.value.columns == f.columns && WellFormed(r.value)
  {
    if names == [] then Ok(f)
    else
      var g :- AfterPasses(f, k, names[..|names| - 1]);
      OutlierPass(g, names[|names| - 1], k)
  }

  /** A pass that raises, after the passes before it went through, ends the loop with its exception. */
  lemma {:induction false} FirstPassErrorEndsLoop(f: Frame, k: real, names: seq<string>, j: nat)
    requires WellFormed(f) && j < |names| && AfterPasses(f, k, names[..j]).Ok?
    ensures OutlierPass(AfterPasses(f, k, names[..j]).value, names[j], k).Err? ==>
      AfterPasses(f, k, names) == OutlierPass(AfterPasses(f, k, names[..j]).value, names[j], k)
    decreases |names|
  {
    if OutlierPass(AfterPasses(f, k, names[..j]).value, names[j], k).Err? {
      if j == |names| - 1 {
        assert names[..j] == names[..|names| - 1];
      } else {
        var front := names[..|names| - 1];
        assert front[..j] == names[..j] && front[j] == names[j];
        FirstPassErrorEndsLoop(f, k, front, j);
      }
    }
  }

  /** The position of the first name that is not a column label, or `|names|` when all are. */
  function FirstMissing(columns: seq<string>, names: seq<string>): (j: nat)
    ensures j <= |names|
    ensures j < |names| ==> names[j] !in columns
    ensures forall m | 0 <= m < j :: names[m] in columns
  {
    if names == [] then 0
    else if names[0] !in columns then 0
    else 1 + FirstMissing(columns, names[1..])
  }

  /**
   * `remove_outliers(df, n_std, col_names)`: KeyError when a name is no
   * column label (`df[col_names]`), else the frame after one pass per name.
   */
  function RemoveOutliersSpec(df: Frame, nStd: real, colNames: seq<string>): Result<Frame>
    requires WellFormed(df)
  {
    var missing := FirstMissing(df.columns, colNames);
    if missing < |colNames| then Err(KeyError(colNames[missing]))
    else AfterPasses(df, nStd, colNames)
  }

  /**
   * A pass keeps its rows in order, and keeps exactly those whose value is
   * at most `k` deviations above the mean. With fewer than two rows it keeps
   * none.
   */
  lemma OutlierPassRows(f: Frame, col: string, k: real)
    requires WellFormed(f) && OutlierPass(f, col, k).Ok?
    ensures IsSubsequence(OutlierPass(f, col, k).value.rows, f.rows)
    ensures |f.rows| < 2 ==> OutlierPass(f, col, k).value.rows == []
    ensures |f.rows| >= 2 ==>
      var i := ColumnIndex(f.columns, col);
      var values := ColumnValues(f.rows, i).value;
      var keep := UpperBound(Mean(values), SampleVariance(values), k);
      (forall row: seq<Cell> | row in OutlierPass(f, col, k).value.rows :: i < |row| && row[i].Num? && keep(row[i].x))
      && (forall r | 0 <= r < |f.rows| && keep(f.rows[r][i].x) :: f.rows[r] in OutlierPass(f, col, k).value.rows)
  {
    var i := ColumnIndex(f.columns, col);
    var values := ColumnValues(f.rows, i).value;
    if |f.rows| >= 2 {
      var keep := UpperBound(Mean(values), SampleVariance(values), k);
      KeepRowsSubsequence(f.rows, i, keep);
      KeptRowsWithin(f.rows, i, keep);
      RowsWithinKept(f.rows, i, keep);
    }
  }

  /** Every row a pass keeps has the frame's width and a value within the pass's bound. */
  lemma PassSurvivorsWithin(f: Frame, col: string, k: real, i: nat, values: seq<real>)
    requires WellFormed(f) && OutlierPass(f, col, k).Ok? && |f.rows| >= 2
    requires ColumnIndex(f.columns, col) == i && ColumnValues(f.rows, i) == Ok(values)
    ensures forall row: seq<Cell> | row in OutlierPass(f, col, k).value.rows ::
      |row| == |f.columns| && i < |row| && row[i].Num?
      && WithinUpperBound(row[i].x, Mean(values), SampleVariance(values), k)
  {
    OutlierPassRows(f, col, k);
    var g := OutlierPass(f, col, k).value;
    forall row: seq<Cell> | row in g.rows ensures |row| == |f.columns| {
      var r :| 0 <= r < |g.rows| && g.rows[r] == row;
    }
  }

  /**
   * Row by row, a pass keeps the rows at the passing positions, in order:
   * the kept rows are, one for one, the rows whose value is at most `k`
   * deviations above the mean, so equal rows are kept or dropped together
   * and a row is kept as often as it occurs among the passing rows.
   */
  lemma OutlierPassPositions(f: Frame, col: string, k: real)
    requires WellFormed(f) && OutlierPass(f, col, k).Ok? && |f.rows| >= 2
    ensures
      var i := ColumnIndex(f.columns, col);
      var values := ColumnValues(f.rows, i).value;
      var pos := PassingPositions(f.rows, i, UpperBound(Mean(values), SampleVariance(values), k));
      |OutlierPass(f, col, k).value.rows| == |pos|
      && (forall m | 0 <= m < |pos| :: OutlierPass(f, col, k).value.rows[m] == f.rows[pos[m]])
      && (forall m, n | 0 <= m < n < |pos| :: pos[m] < pos[n])
      && (forall r | 0 <= r < |f.rows| ::
            UpperBound(Mean(values), SampleVariance(values), k)(f.rows[r][i].x) <==> r in pos)
  {
    var i := ColumnIndex(f.columns, col);
    var values := ColumnValues(f.rows, i).value;
    var keep := UpperBound(Mean(values), SampleVariance(values), k);
    KeepRowsAtPositions(f.rows, i, keep);
    PassingPositionsOrdered(f.rows, i, keep);
  }

  /** The frame left after any number of passes holds some of the rows, in their order. */
  lemma {:induction false} AfterPassesSubsequence(f: Frame, k: real, names: seq<string>)
    requires WellFormed(f) && AfterPasses(f, k, names).Ok?
    ensures IsSubsequence(AfterPasses(f, k, names).value.rows, f.rows)
    decreases |names|
  {
    if names == [] {
      SubsequenceOfItself(f.rows);
    } else {
      var g := AfterPasses(f, k, names[..|names| - 1]).value;
      AfterPassesSubsequence(f, k, names[..|names| - 1]);
      OutlierPassRows(g, names[|names| - 1], k);
      SubsequenceTransitive(AfterPasses(f, k, names).value.rows, g.rows, f.rows);
    }
  }

  /** If every value lies above `m`, their sum exceeds `m` times their count. */
  lemma {:induction false} SumAbove(xs: seq<real>, m: real)
    requires xs != [] && forall j | 0 <= j < |xs| :: xs[j] > m
    ensures Sum(xs) > |xs| as real * m
    decreases |xs|
  {
    var front := xs[..|xs| - 1];
    if front != [] {
      SumAbove(front, m);
      assert (|front| as real) * m + m == |xs| as real * m;
    }
  }

  /** Some value is at most the mean. */
  lemma SomeValueAtMostMean(xs: seq<real>) returns (j: nat)
    requires xs != []
    ensures j < |xs| && xs[j] <= Mean(xs)
  {
    var m := Mean(xs);
    var n := |xs| as real;
    assert n * m == Sum(xs);
    if forall j | 0 <= j < |xs| :: xs[j] > m {
      SumAbove(xs, m);
      assert false;
    }
    j :| 0 <= j < |xs| && xs[j] <= m;
  }

  /**
   * With `k >= 0` a pass over at least two numeric rows never drops them
   * all: a row whose value is at most the mean always stays.
   */
  lemma OutlierPassKeepsSomeRow(f: Frame, col: string, k: real)
    requires WellFormed(f) && OutlierPass(f, col, k).Ok? && |f.rows| >= 2 && k >= 0.0
    ensures OutlierPass(f, col, k).value.rows != []
  {
    var i := ColumnIndex(f.columns, col);
    var values := ColumnValues(f.rows, i).value;
    var j := SomeValueAtMostMean(values);
    OutlierPassRows(f, col, k);
    assert f.rows[j][i].x == values[j];
    assert UpperBound(Mean(values), SampleVariance(values), k)(f.rows[j][i].x);
  }

  /**
   * Every row a pass keeps has a value at most `mean + k * sd`, where `sd`
   * is the column's sample standard deviation; with `k >= 0`, no row whose
   * value is at most the mean is removed, however far below it lies.
   */
  lemma OutlierPassBound(f: Frame, col: string, k: real, sd: real)
    requires WellFormed(f) && OutlierPass(f, col, k).Ok? && |f.rows| >= 2
    requires sd >= 0.0
    requires sd * sd == SampleVariance(ColumnValues(f.rows, ColumnIndex(f.columns, col)).value)
    ensures var i := ColumnIndex(f.columns, col);
      var values := ColumnValues(f.rows, i).value;
      (forall row: seq<Cell> | row in OutlierPass(f, col, k).value.rows ::
        i < |row| && row[i].Num? && row[i].x <= Mean(values) + k * sd)
      && (k >= 0.0 ==> forall r | 0 <= r < |f.rows| && f.rows[r][i].x <= Mean(values) ::
        f.rows[r] in OutlierPass(f, col, k).value.rows)
  {
    var i := ColumnIndex(f.columns, col);
    var values := ColumnValues(f.rows, i).value;
    var keep := UpperBound(Mean(values), SampleVariance(values), k);
    OutlierPassRows(f, col, k);
    forall row: seq<Cell> | row in OutlierPass(f, col, k).value.rows
      ensures i < |row| && row[i].Num? && row[i].x <= Mean(values) + k * sd
    {
      UpperBoundWithDeviation(row[i].x, Mean(values), sd, k);
    }
  }

  /**
   * `row` passed the test of the pass over column `col` of `g`: the column
   * exists and is numeric, there were at least two rows, and the row's
   * value is at most `k` deviations above the column's mean.
   */
  predicate PassedColumn(g: Frame, col: string, k: real, row: seq<Cell>)
    requires WellFormed(g)
  {
    var i := ColumnIndex(g.columns, col);
    i < |g.columns| && ColumnValues(g.rows, i).Ok? && |g.rows| >= 2
    && i < |row| && row[i].Num?
    && WithinUpperBound(row[i].x, Mean(ColumnValues(g.rows, i).value), SampleVariance(ColumnValues(g.rows, i).value), k)
  }

  /** The rows left after all the passes are a subsequence of the rows left after the first `j`. */
  lemma {:induction false} LaterPassesSubsequence(f: Frame, k: real, names: seq<string>, j: nat)
    requires WellFormed(f) && AfterPasses(f, k, names).Ok? && j <= |names|
    ensures AfterPasses(f, k, names[..j]).Ok?
    ensures IsSubsequence(AfterPasses(f, k, names).value.rows, AfterPasses(f, k, names[..j]).value.rows)
    decreases |names|
  {
    if j == |names| {
      assert names[..j] == names;
      SubsequenceOfItself(AfterPasses(f, k, names).value.rows);
    } else {
      var front := names[..|names| - 1];
      var g := AfterPasses(f, k, front).value;
      assert front[..j] == names[..j];
      LaterPassesSubsequence(f, k, front, j);
      OutlierPassRows(g, names[|names| - 1], k);
      SubsequenceTransitive(AfterPasses(f, k, names).value.rows, g.rows, AfterPasses(f, k, names[..j]).value.rows);
    }
  }

  /** Once every name is a column label, the passes can only raise TypeError, for a column holding a str. */
  lemma {:induction false} AfterPassesError(f: Frame, k: real, names: seq<string>)
    requires WellFormed(f) && forall j | 0 <= j < |names| :: names[j] in f.columns
    ensures AfterPasses(f, k, names).Err? ==> AfterPasses(f, k, names).error == TypeError
    decreases |names|
  {
    if names != [] {
      var front := names[..|names| - 1];
      assert forall j | 0 <= j < |front| :: front[j] == names[j];
      AfterPassesError(f, k, front);
      if AfterPasses(f, k, front).Ok? {
        var g := AfterPasses(f, k, front).value;
        var col := names[|names| - 1];
        assert col in g.columns;
        assert ColumnIndex(g.columns, col) < |g.columns|;
      }
    }
  }

  /**
   * `remove_outliers` raises KeyError for the first name that is no column
   * label; when all names are labels it raises only TypeError, for a column
   * holding a str. Otherwise it returns a frame with the same columns that
   * holds some of the rows, in their order, each of which passed the test
   * of every column's pass, on the rows left by the passes before it.
   */
  lemma RemoveOutliersResult(df: Frame, nStd: real, colNames: seq<string>)
    requires WellFormed(df)
    ensures (exists name | name in colNames :: name !in df.columns) ==>
      RemoveOutliersSpec(df, nStd, colNames).Err? && RemoveOutliersSpec(df, nStd, colNames).error.KeyError?
    ensures RemoveOutliersSpec(df, nStd, colNames).Ok? ==>
      var g := RemoveOutliersSpec(df, nStd, colNames).value;
      g.columns == df.columns && WellFormed(g) && IsSubsequence(g.rows, df.rows)
    ensures (forall name | name in colNames :: name in df.columns) && RemoveOutliersSpec(df, nStd, colNames).Err? ==>
      RemoveOutliersSpec(df, nStd, colNames).error == TypeError
    ensures RemoveOutliersSpec(df, nStd, colNames).Ok? ==>
      forall j, row: seq<Cell> | 0 <= j < |colNames| && row in RemoveOutliersSpec(df, nStd, colNames).value.rows ::
        PassedEarlierColumn(df, nStd, colNames, j, row)
  {
    RemoveOutliersErrors(df, nStd, colNames);
    if RemoveOutliersSpec(df, nStd, colNames).Ok? {
      AfterPassesSubsequence(df, nStd, colNames);
      RemoveOutliersSurvivors(df, nStd, colNames);
    }
  }

  /** When every name is a column label, `remove_outliers` can raise only TypeError. */
  lemma RemoveOutliersErrors(df: Frame, nStd: real, colNames: seq<string>)
    requires WellFormed(df)
    ensures (forall name | name in colNames :: name in df.columns) && RemoveOutliersSpec(df, nStd, colNames).Err? ==>
      RemoveOutliersSpec(df, nStd, colNames).error == TypeError
  {
    if forall name | name in colNames :: name in df.columns {
      assert FirstMissing(df.columns, colNames) == |colNames|;
      AfterPassesError(df, nStd, colNames);
    }
  }

  /** Every row `remove_outliers` returns passed the test of every column's pass. */
  lemma RemoveOutliersSurvivors(df: Frame, nStd: real, colNames: seq<string>)
    requires WellFormed(df) && AfterPasses(df, nStd, colNames).Ok?
    ensures forall j, row: seq<Cell> | 0 <= j < |colNames| && row in AfterPasses(df, nStd, colNames).value.rows ::
      PassedEarlierColumn(df, nStd, colNames, j, row)
  {
    forall j, row: seq<Cell> | 0 <= j < |colNames| && row in AfterPasses(df, nStd, colNames).value.rows
      ensures PassedEarlierColumn(df, nStd, colNames, j, row)
    {
      SurvivorPassedColumn(df, nStd, colNames, j, row);
    }
  }

  /** `row` passed the test of pass `j`, on the frame the passes before it left. */
  predicate PassedEarlierColumn(df: Frame, nStd: real, colNames: seq<string>, j: nat, row: seq<Cell>)
    requires WellFormed(df) && j < |colNames|
  {
    AfterPasses(df, nStd, colNames[..j]).Ok?
    && PassedColumn(AfterPasses(df, nStd, colNames[..j]).value, colNames[j], nStd, row)
  }

  /** A row left after all the passes passed the test of pass `j`. */
  lemma SurvivorPassedColumn(df: Frame, nStd: real, colNames: seq<string>, j: nat, row: seq<Cell>)
    requires WellFormed(df) && AfterPasses(df, nStd, colNames).Ok? && j < |colNames|
    requires row in AfterPasses(df, nStd, colNames).value.rows
    ensures AfterPasses(df, nStd, colNames[..j]).Ok?
    ensures PassedColumn(AfterPasses(df, nStd, colNames[..j]).value, colNames[j], nStd, row)
  {
    LaterPassesSubsequence(df, nStd, colNames, j + 1);
    var names := colNames[..j + 1];
    assert names[..j] == colNames[..j] && names[j] == colNames[j];
    var h := AfterPasses(df, nStd, colNames[..j]).value;
    var col := colNames[j];
    var p := OutlierPass(h, col, nStd);
    assert AfterPasses(df, nStd, names) == p;
    SubsequenceMembers(AfterPasses(df, nStd, colNames).value.rows, p.value.rows, row);
    OutlierPassRows(h, col, nStd);
    assert |h.rows| >= 2;
    var i := ColumnIndex(h.columns, col);
    var values := ColumnValues(h.rows, i).value;
    assert UpperBound(Mean(values), SampleVariance(values), nStd)(row[i].x);
  }

  /** The loop of `remove_outliers`, rebinding the frame after each column's pass. */
  method RemoveOutliers(df: Frame, nStd: real, colNames: seq<string>) returns (res: Result<Frame>)
    requires WellFormed(df)
    ensures res == RemoveOutliersSpec(df, nStd, colNames)
  {
    var missing := FirstMissing(df.columns, colNames);
    if missing < |colNames| {
      return Err(KeyError(colNames[missing]));
    }
    var frame := df;
    for j := 0 to |colNames|
      invariant AfterPasses(df, nStd, colNames[..j]) == Ok(frame)
    {
      var col := colNames[j];
      assert colNames[..j + 1][..j] == colNames[..j];
      FirstPassErrorEndsLoop(df, nStd, colNames, j);
      var i := ColumnIndex(frame.columns, col);
      var values :- ColumnValues(frame.rows, i);
      if |values| < 2 {
        frame := Frame(frame.columns, []);
      } else {
        var mean := Mean(values);
        var variance := SampleVariance(values);
        frame := Frame(frame.columns, KeepRows(frame.rows, i, UpperBound(mean, variance, nStd)));
      }
    }
    assert colNames[..|colNames|] == colNames;
    return Ok(frame);
  }
}

=== FILE: postal_code.dfy ===
/**
 * The check the dashboard applies to the postal code typed into its form
 * before it queries the EC3 database: exactly five characters that Python's
 * `int()` accepts, whose value is then sent as the query's postal code.
 */
module PostalCode {
  import opened PyValues
  import opened PyText
  import opened PyNumbers

  /** `is_valid_postal_code`: five characters long and accepted by `int()`. */
  function IsValidPostalCode(postalCode: string): (valid: bool)
    ensures valid ==> |postalCode| == 5
  {
    |postalCode| == 5 && ParseInt(postalCode).Some?
  }

  /**
   * The corrected check, what the dashboard's warning asks for: a code of
   * exactly five digits. Such a code is accepted by `int()` as a value
   * below 100000 that, written back with zero padding, gives the code again.
   */
  function IsValidFiveDigitCode(postalCode: string): (valid: bool)
    ensures valid ==> IsValidPostalCode(postalCode)
    ensures valid ==> 0 <= ParseInt(postalCode).value < 100000
    ensures valid ==> Digits(ParseInt(postalCode).value, 5) == postalCode
  {
    if |postalCode| == 5 && forall k | 0 <= k < |postalCode| :: IsDigit(postalCode[k]) then
      FiveDigitsAccepted(postalCode);
      DigitsOfValue(postalCode);
      PartValueBound(postalCode);
      DigitCountAtMostLength(postalCode);
      Pow10Monotone(DigitCount(postalCode), 5);
      assert Pow10(5) == 100000;
      true
    else false
  }

  /** Every code the corrected check accepts is the padded form of its value, and the reverse. */
  lemma FiveDigitCodesArePaddedNumbers(n: nat)
    requires n < 100000
    ensures IsValidFiveDigitCode(Digits(n, 5)) && ParseInt(Digits(n, 5)) == Some(n)
  {
    PaddedCodeRoundTrip(n);
    DigitsValue(n, 5);
  }

  /** Writing the value of a string of digits back with as many digits gives the string. */
  lemma {:induction false} DigitsOfValue(s: string)
    requires forall k | 0 <= k < |s| :: IsDigit(s[k])
    ensures Digits(PartValue(s), |s|) == s
  {
    if s != [] {
      var front, last := s[..|s| - 1], s[|s| - 1];
      var v := PartValue(s);
      assert v == 10 * PartValue(front) + DigitValue(last);
      assert v / 10 == PartValue(front) && v % 10 == DigitValue(last);
      DigitsOfValue(front);
      assert DigitChar(DigitValue(last)) == last;
      assert s == front + [last];
    }
  }

  /** Every five-digit string is accepted, and `int()` reads it as its decimal value. */
  lemma FiveDigitsAccepted(s: string)
    requires |s| == 5 && forall k | 0 <= k < |s| :: IsDigit(s[k])
    ensures IsValidPostalCode(s)
    ensures ParseInt(s) == Some(PartValue(s))
  {
    DigitIsNotSpace(s[0]);
    DigitIsNotSpace(s[4]);
    ParseIntUnspaced(s);
    DigitsInteger(s);
  }

  /**
   * A character that is no digit, underscore, sign or whitespace (a letter,
   * as in `"12a45"`) makes `int()` raise ValueError, so the code is rejected.
   */
  lemma {:induction false} ForeignCharacterRejected(s: string, i: nat)
    requires i < |s|
    requires !IsDigit(s[i]) && s[i] != '_' && !IsSign(s[i]) && !IsNumberSpace(s[i])
    ensures ParseInt(s) == None
    ensures !IsValidPostalCode(s)
  {
    StripHoldsNonSpace(s, i);
    ForeignCharacterNotInteger(Strip(s), s[i]);
  }

  /** `int()` accepts no stripped text holding a character other than a digit, underscore or sign. */
  lemma ForeignCharacterNotInteger(t: string, c: char)
    requires c in t
    requires !IsDigit(c) && c != '_' && !IsSign(c)
    ensures SignedInteger(t) == None
  {
    var j :| 0 <= j < |t| && t[j] == c;
    if SignedInteger(t).Some? {
      if IsSign(t[0]) {
        assert t[1..][j - 1] == t[j];
        DigitPartChars(t[1..]);
      } else {
        DigitPartChars(t);
      }
    }
  }

  lemma {:induction false} Pow10Monotone(a: nat, b: nat)
    requires a <= b
    ensures Pow10(a) <= Pow10(b)
  {
    if a < b {
      Pow10Monotone(a, b - 1);
    }
  }

  /**
   * `int(postal_code)` of an accepted code lies between -9999 and 99999:
   * a sign takes one of the five characters.
   */
  lemma AcceptedValueRange(s: string)
    requires IsValidPostalCode(s)
    ensures -9999 <= ParseInt(s).value <= 99999
  {
    var t := Strip(s);
    assert Pow10(4) == 10000 && Pow10(5) == 100000;
    if |t| > 0 && IsSign(t[0]) {
      var digits := t[1..];
      PartValueBound(digits);
      DigitCountAtMostLength(digits);
      Pow10Monotone(DigitCount(digits), 4);
    } else {
      PartValueBound(t);
      DigitCountAtMostLength(t);
      Pow10Monotone(DigitCount(t), 5);
    }
  }

  /** Writing a number below 100000 as five zero-padded digits gives an accepted code that reads back as it. */
  lemma PaddedCodeRoundTrip(n: nat)
    requires n < 100000
    ensures IsValidPostalCode(Digits(n, 5))
    ensures ParseInt(Digits(n, 5)) == Some(n)
  {
    assert Pow10(5) == 100000;
    DigitsValue(n, 5);
    SmallModulo(n, Pow10(5));
    FiveDigitsAccepted(Digits(n, 5));
  }

  /** A sign before the digits: `int()` accepts it, `-` negating the value. */
  lemma {:induction false} SignedDigitsAccepted(c: char, d: string)
    requires IsSign(c)
    requires d != [] && forall k | 0 <= k < |d| :: IsDigit(d[k])
    ensures ParseInt([c] + d) == Some(if c == '-' then 0 - PartValue(d) else PartValue(d))
  {
    var s := [c] + d;
    DigitIsNotSpace(d[|d| - 1]);
    assert s[0] == c && s[|s| - 1] == d[|d| - 1];
    ParseIntUnspaced(s);
    assert s[1..] == d;
    AllDigitsIsDigitPart(d);
  }

  /**
   * A sign counts as one of the five characters: `+dddd` and `-dddd` are
   * accepted although they are not five digits.
   */
  lemma SignedCodeAccepted(c: char, d: string)
    requires IsSign(c)
    requires |d| == 4 && forall k | 0 <= k < |d| :: IsDigit(d[k])
    ensures IsValidPostalCode([c] + d) && !IsValidFiveDigitCode([c] + d)
  {
    SignedDigitsAccepted(c, d);
  }

  /** `int()` reads a string of digits as its decimal value. */
  lemma DigitsParse(d: string)
    requires d != [] && forall k | 0 <= k < |d| :: IsDigit(d[k])
    ensures Strip(d) == d
    ensures SignedInteger(d) == Some(PartValue(d))
  {
    DigitIsNotSpace(d[0]);
    DigitIsNotSpace(d[|d| - 1]);
    StripUnspaced(d);
    DigitsInteger(d);
  }

  /** Whitespace before the digits is skipped by `int()`. */
  lemma LeadingSpaceSkipped(c: char, d: string)
    requires IsNumberSpace(c)
    requires d != [] && forall k | 0 <= k < |d| :: IsDigit(d[k])
    ensures ParseInt([c] + d) == Some(PartValue(d))
  {
    DigitsParse(d);
    DigitIsNotSpace(d[0]);
    TrimStartOneSpace(c, d);
  }

  /** Whitespace after the digits is skipped by `int()`. */
  lemma TrailingSpaceSkipped(d: string, c: char)
    requires IsNumberSpace(c)
    requires d != [] && forall k | 0 <= k < |d| :: IsDigit(d[k])
    ensures ParseInt(d + [c]) == Some(PartValue(d))
  {
    DigitsParse(d);
    DigitIsNotSpace(d[0]);
    DigitIsNotSpace(d[|d| - 1]);
    TrimEndOneSpace(d, c);
  }

  /** Whitespace before or after four digits counts as one of the five characters. */
  lemma SpacedCodeAccepted(c: char, d: string)
    requires IsNumberSpace(c)
    requires |d| == 4 && forall k | 0 <= k < |d| :: IsDigit(d[k])
    ensures IsValidPostalCode([c] + d) && IsValidPostalCode(d + [c])
    ensures !IsValidFiveDigitCode([c] + d) && !IsValidFiveDigitCode(d + [c])
  {
    assert ([c] + d)[0] == c && (d + [c])[4] == c;
    LeadingSpaceSkipped(c, d);
    TrailingSpaceSkipped(d, c);
  }

  /** An underscore between two digits counts as one of the five characters. */
  lemma UnderscoreCodeAccepted(a: string, b: string)
    requires a != [] && forall k | 0 <= k < |a| :: IsDigit(a[k])
    requires b != [] && forall k | 0 <= k < |b| :: IsDigit(b[k])
    requires |a| + |b| == 4
    ensures IsValidPostalCode(a + "_" + b) && !IsValidFiveDigitCode(a + "_" + b)
  {
    var s := a + "_" + b;
    DigitIsNotSpace(a[0]);
    DigitIsNotSpace(b[|b| - 1]);
    assert s[0] == a[0] && s[4] == b[|b| - 1] && s[|a|] == '_';
    ParseIntUnspaced(s);
    AllDigitsIsDigitPart(b);
    UnderscoreJoinsDigitParts(a, b);
  }

  lemma {:induction false} UnderscoreJoinsDigitParts(a: string, b: string)
    requires a != [] && forall k | 0 <= k < |a| :: IsDigit(a[k])
    requires IsDigitPart(b)
    ensures IsDigitPart(a + "_" + b)
  {
    var s := a + "_" + b;
    if |a| == 1 {
      assert s[1] == '_' && s[2..] == b;
    } else {
      UnderscoreJoinsDigitParts(a[1..], b);
      assert s[1..] == a[1..] + "_" + b;
    }
  }

  /**
   * In a code with no whitespace at its ends, an underscore at either end,
   * right after a sign, or next to another underscore makes `int()` raise
   * ValueError, so the code is rejected.
   */
  lemma MisplacedUnderscoreRejected(s: string, i: nat)
    requires i < |s| && !IsNumberSpace(s[0]) && !IsNumberSpace(s[|s| - 1])
    requires s[i] == '_'
    requires i == 0 || i == |s| - 1 || IsSign(s[i - 1]) || s[i + 1] == '_'
    ensures ParseInt(s) == None && !IsValidPostalCode(s)
  {
    ParseIntUnspaced(s);
    if IsSign(s[0]) && IsDigitPart(s[1..]) {
      DigitPartUnderscores(s[1..]);
      DigitPartChars(s[1..]);
    } else if !IsSign(s[0]) && IsDigitPart(s) {
      DigitPartUnderscores(s);
      DigitPartChars(s);
    }
  }

  /**
   * In a code with no whitespace at its ends, a character after the first
   * that is neither a digit nor an underscore (inner whitespace, a second
   * sign) makes `int()` raise ValueError, so the code is rejected.
   */
  lemma InnerCharacterRejected(s: string, i: nat)
    requires 0 < i < |s| && !IsNumberSpace(s[0]) && !IsNumberSpace(s[|s| - 1])
    requires !IsDigit(s[i]) && s[i] != '_'
    ensures ParseInt(s) == None && !IsValidPostalCode(s)
  {
    ParseIntUnspaced(s);
    if IsSign(s[0]) && IsDigitPart(s[1..]) {
      DigitPartChars(s[1..]);
    } else if !IsSign(s[0]) && IsDigitPart(s) {
      DigitPartChars(s);
    }
  }
}

=== FILE: py_numbers.dfy ===
/**
 * The three Python numeric built-ins the cleaning code relies on, applied to
 * strings and reals: `int(s)` (base 10), `float(s)` for finite decimal
 * literals, and `round(x)` with no digit count.
 */
module PyNumbers {
  import opened PyValues
  import opened PyText

  predicate IsDigit(c: char) {
    '0' <= c <= '9'
  }

  function DigitValue(c: char): nat
    requires IsDigit(c)
  {
    c as int - '0' as int
  }

  function DigitChar(d: nat): (c: char)
    requires d < 10
    ensures IsDigit(c) && DigitValue(c) == d
  {
    ('0' as int + d) as char
  }

  predicate IsSign(c: char) {
    c == '+' || c == '-'
  }

  /**
   * A digit part of a Python numeric literal, `digit (["_"] digit)*`:
   * decimal digits, with a single underscore allowed between two digits
   * (`1_234`, not `_1`, `1_` or `1__2`).
   */
  predicate IsDigitPart(s: string) {
    |s| > 0 && IsDigit(s[0]) &&
    (|s| == 1 || IsDigitPart(s[1..]) || (s[1] == '_' && IsDigitPart(s[2..])))
  }

  function Pow10(n: nat): (p: nat)
    ensures p >= 1
  {
    if n == 0 then 1 else 10 * Pow10(n - 1)
  }

  /** The number of digits in `s`; underscores do not count. */
  function DigitCount(s: string): nat {
    if s == [] then 0
    else DigitCount(s[..|s| - 1]) + (if IsDigit(s[|s| - 1]) then 1 else 0)
  }

  /** The digits of `s` read as a decimal number, underscores skipped. */
  function PartValue(s: string): nat {
    if s == [] then 0
    else if IsDigit(s[|s| - 1]) then 10 * PartValue(s[..|s| - 1]) + DigitValue(s[|s| - 1])
    else PartValue(s[..|s| - 1])
  }

  /** The `width` low-order decimal digits of `n`, most significant first, zero-padded. */
  function Digits(n: nat, width: nat): (s: string)
    ensures |s| == width
  {
    if width == 0 then [] else Digits(n / 10, width - 1) + [DigitChar(n % 10)]
  }

  /** `[sign] digitpart`, the integer literal `int()` accepts once its argument is stripped. */
  function SignedInteger(s: string): Option<int> {
    if |s| > 0 && IsSign(s[0]) then
      if IsDigitPart(s[1..]) then
        var magnitude: int := PartValue(s[1..]);
        Some(if s[0] == '-' then -magnitude else magnitude)
      else None
    else if IsDigitPart(s) then Some(PartValue(s))
    else None
  }

  /**
   * `int(s)` for a str `s` and the default base 10; None where `int()`
   * raises ValueError.
   */
  function ParseInt(s: string): Option<int> {
    SignedInteger(Strip(s))
  }

  /** The index of the first `c` in `s`, or `|s|` when there is none. */
  function IndexOf(s: string, c: char): (i: nat)
    ensures i <= |s|
    ensures forall k | 0 <= k < i :: s[k] != c
    ensures i < |s| ==> s[i] == c
  {
    if s == [] then 0
    else if s[0] == c then 0
    else 1 + IndexOf(s[1..], c)
  }

  /** The index of the first exponent mark `e` or `E` in `s`, or `|s|`. */
  function ExponentIndex(s: string): (i: nat)
    ensures i <= |s|
    ensures forall k | 0 <= k < i :: s[k] != 'e' && s[k] != 'E'
    ensures i < |s| ==> s[i] == 'e' || s[i] == 'E'
  {
    var lower := IndexOf(s, 'e');
    var upper := IndexOf(s, 'E');
    if lower <= upper then lower else upper
  }

  /**
   * The value of the mantissa of a float literal:
   * `digitpart ["." [digitpart]]` or `"." digitpart`.
   */
  function Mantissa(m: string): Option<real> {
    var p := IndexOf(m, '.');
    if p == |m| then
      if IsDigitPart(m) then Some(PartValue(m) as real) else None
    else
      var whole, fraction := m[..p], m[p + 1..];
      if (whole == [] || IsDigitPart(whole)) && (fraction == [] || IsDigitPart(fraction))
         && (whole != [] || fraction != [])
      then Some(DecimalValue(PartValue(whole), PartValue(fraction), DigitCount(fraction)))
      else None
  }

  /** `m * 10^e`, by moving the decimal point of `m` one place at a time. */
  function ShiftPoint(m: real, e: int): real
    decreases if e >= 0 then e else -e
  {
    if e == 0 then m
    else if e > 0 then ShiftPoint(10.0 * m, e - 1)
    else ShiftPoint(m / 10.0, e + 1)
  }

  /** Shifting the point to the right multiplies by a power of ten. */
  lemma {:induction false} ShiftPointMultiplies(m: real, e: nat)
    ensures ShiftPoint(m, e) == m * Pow10(e) as real
    decreases e
  {
    if e > 0 {
      ShiftPointMultiplies(10.0 * m, e - 1);
      var p := Pow10(e - 1) as real;
      assert Pow10(e) as real == 10.0 * p;
      assert (10.0 * m) * p == m * (10.0 * p);
    }
  }

  /** Shifting the point to the left divides by a power of ten. */
  lemma {:induction false} ShiftPointDivides(m: real, e: nat)
    ensures ShiftPoint(m, 0 - e) == m / Pow10(e) as real
    decreases e
  {
    if e > 0 {
      ShiftPointDivides(m / 10.0, e - 1);
      var p := Pow10(e - 1) as real;
      assert ShiftPoint(m, 0 - e) == ShiftPoint(m / 10.0, 0 - (e - 1));
      assert Pow10(e) as real == 10.0 * p;
      assert (m / 10.0) / p == m / (10.0 * p);
    }
  }

  /** The value of the decimal `whole.fraction` whose fraction has `places` digits. */
  function DecimalValue(whole: nat, fraction: nat, places: nat): real {
    whole as real + ShiftPoint(fraction as real, 0 - places)
  }

  /** An unsigned float literal: a mantissa and an optional exponent `e[sign]digitpart`. */
  function UnsignedFloat(body: string): Option<real> {
    var e := ExponentIndex(body);
    var m := Mantissa(body[..e]);
    var x := if e == |body| then Some(0) else SignedInteger(body[e + 1..]);
    if m.None? || x.None? then None else Some(ShiftPoint(m.value, x.value))
  }

  /**
   * `float(s)` for a finite decimal literal: stripped, an optional sign and
   * an unsigned literal. None where `float()` raises ValueError, and also
   * for the spellings of infinity and NaN, which have no real value.
   */
  function ParseFloat(s: string): Option<real> {
    SignedFloat(Strip(s))
  }

  /** `[sign] unsigned-literal`, the float literal `float()` accepts once its argument is stripped. */
  function SignedFloat(t: string): Option<real> {
    if |t| > 0 && IsSign(t[0]) then
      match UnsignedFloat(t[1..])
      case None => None
      case Some(magnitude) => Some(if t[0] == '-' then -magnitude else magnitude)
    else UnsignedFloat(t)
  }

  /**
   * `round(x)` for a float `x` and no digit count: the nearest integer,
   * and of two equally near ones the even one.
   */
  function RoundHalfEven(x: real): (n: int)
    ensures -0.5 <= x - n as real <= 0.5
    ensures (x - n as real == 0.5 || n as real - x == 0.5) ==> n % 2 == 0
  {
    var f := x.Floor;
    var above := x - f as real;
    if above < 0.5 then f
    else if above > 0.5 then f + 1
    else if f % 2 == 0 then f
    else f + 1
  }

  /** The two postconditions of RoundHalfEven pin its result down. */
  lemma RoundHalfEvenUnique(x: real, m: int)
    requires -0.5 <= x - m as real <= 0.5
    requires (x - m as real == 0.5 || m as real - x == 0.5) ==> m % 2 == 0
    ensures m == RoundHalfEven(x)
  {
  }

  /** Digit parts hold no more than `DigitCount` digits' worth of value. */
  lemma {:induction false} PartValueBound(s: string)
    ensures PartValue(s) < Pow10(DigitCount(s))
  {
    if s != [] {
      var init := s[..|s| - 1];
      PartValueBound(init);
      if IsDigit(s[|s| - 1]) {
        assert PartValue(s) <= 10 * (Pow10(DigitCount(init)) - 1) + 9;
      }
    }
  }

  lemma {:induction false} DigitCountAtMostLength(s: string)
    ensures DigitCount(s) <= |s|
  {
    if s != [] {
      DigitCountAtMostLength(s[..|s| - 1]);
    }
  }

  /** Zero-padded digits are a digit part whose value is `n` modulo `10^width`. */
  lemma DigitsValue(n: nat, width: nat)
    ensures width > 0 ==> IsDigitPart(Digits(n, width))
    ensures PartValue(Digits(n, width)) == n % Pow10(width)
    ensures forall k | 0 <= k < width :: IsDigit(Digits(n, width)[k])
  {
    DigitsAreDigits(n, width);
    DigitsPartValue(n, width);
    if width > 0 {
      AllDigitsIsDigitPart(Digits(n, width));
    }
  }

  /** Every character of zero-padded digits is a digit. */
  lemma {:induction false} DigitsAreDigits(n: nat, width: nat)
    ensures forall k | 0 <= k < width :: IsDigit(Digits(n, width)[k])
  {
    if width > 0 {
      var s := Digits(n, width);
      var init := Digits(n / 10, width - 1);
      DigitsAreDigits(n / 10, width - 1);
      assert s == init + [DigitChar(n % 10)];
      forall k | 0 <= k < width ensures IsDigit(s[k]) {
        if k < width - 1 { assert s[k] == init[k]; }
      }
    }
  }

  /** Zero-padded digits are worth `n` modulo `10^width`. */
  lemma {:induction false} DigitsPartValue(n: nat, width: nat)
    ensures PartValue(Digits(n, width)) == n % Pow10(width)
  {
    if width > 0 {
      var s := Digits(n, width);
      var init := Digits(n / 10, width - 1);
      DigitsPartValue(n / 10, width - 1);
      assert s == init + [DigitChar(n % 10)];
      assert s[..|s| - 1] == init && s[|s| - 1] == DigitChar(n % 10);
      assert PartValue(s) == 10 * PartValue(init) + n % 10;
      ModuloOfTenfold(n, Pow10(width - 1));
    }
  }

  lemma SmallModulo(x: nat, p: nat)
    requires x < p
    ensures x % p == x
  {
  }

  lemma ModuloOfTenfold(n: nat, p: nat)
    requires p >= 1
    ensures 10 * ((n / 10) % p) + n % 10 == n % (10 * p)
  {
    var q, r := n / 10, n % 10;
    var a, b := q / p, q % p;
    assert n == 10 * q + r;
    assert q == a * p + b;
    assert n == a * (10 * p) + (10 * b + r);
    ModUnique(n, 10 * p, a, 10 * b + r);
  }

  lemma ModUnique(n: int, d: int, k: int, r: int)
    requires d > 0 && 0 <= r < d && n == k * d + r
    ensures n % d == r
  {
    var t := k - n / d;
    assert n == (n / d) * d + n % d;
    assert t * d == n % d - r;
  }

  /** A non-empty run of digits is a digit part. */
  lemma {:induction false} AllDigitsIsDigitPart(s: string)
    requires s != [] && forall k | 0 <= k < |s| :: IsDigit(s[k])
    ensures IsDigitPart(s)
  {
    if |s| > 1 {
      AllDigitsIsDigitPart(s[1..]);
    }
  }

  /** A digit part holds digits and underscores only. */
  lemma {:induction false} DigitPartChars(s: string)
    requires IsDigitPart(s)
    ensures forall k | 0 <= k < |s| :: IsDigit(s[k]) || s[k] == '_'
  {
    if |s| > 1 {
      if IsDigitPart(s[1..]) {
        DigitPartChars(s[1..]);
        assert forall k | 1 <= k < |s| :: s[k] == s[1..][k - 1];
      } else {
        DigitPartChars(s[2..]);
        assert forall k | 2 <= k < |s| :: s[k] == s[2..][k - 2];
      }
    }
  }

  /**
   * Where a digit part may hold underscores: never at either end and never
   * two in a row.
   */
  lemma {:induction false} DigitPartUnderscores(s: string)
    requires IsDigitPart(s)
    ensures IsDigit(s[0]) && IsDigit(s[|s| - 1])
    ensures forall k | 0 <= k < |s| - 1 :: s[k] == '_' ==> s[k + 1] != '_'
  {
    if |s| > 1 {
      var rest := if IsDigitPart(s[1..]) then s[1..] else s[2..];
      var skip := |s| - |rest|;
      DigitPartUnderscores(rest);
      assert forall k | skip <= k < |s| :: s[k] == rest[k - skip];
    }
  }

  /** Digit parts contain no point and no exponent mark, so `float()` reads them whole. */
  lemma DigitPartIsWholeLiteral(s: string)
    requires IsDigitPart(s)
    ensures UnsignedFloat(s) == Some(PartValue(s) as real)
  {
    DigitPartChars(s);
    assert forall k | 0 <= k < |s| :: s[k] != '.' && s[k] != 'e' && s[k] != 'E';
    assert ExponentIndex(s) == |s|;
    assert s[..|s|] == s;
    assert IndexOf(s, '.') == |s|;
  }

  /** Where `int(s)` succeeds, `float(s)` succeeds with the same value. */
  lemma ParseFloatExtendsParseInt(s: string, n: int)
    requires ParseInt(s) == Some(n)
    ensures ParseFloat(s) == Some(n as real)
  {
    SignedFloatExtendsSignedInteger(Strip(s), n);
  }

  /** Every integer literal is a float literal of the same value. */
  lemma SignedFloatExtendsSignedInteger(t: string, n: int)
    requires SignedInteger(t) == Some(n)
    ensures SignedFloat(t) == Some(n as real)
  {
    if |t| > 0 && IsSign(t[0]) {
      var body := t[1..];
      DigitPartIsWholeLiteral(body);
      assert n == if t[0] == '-' then 0 - PartValue(body) else PartValue(body);
    } else {
      DigitPartIsWholeLiteral(t);
    }
  }

  lemma DigitIsNotSpace(c: char)
    requires IsDigit(c)
    ensures !IsSpace(c) && !IsNumberSpace(c)
  {
  }

  /** A string that starts and ends with a non-space character is its own stripped form. */
  lemma StripUnspaced(s: string)
    requires s != [] && !IsNumberSpace(s[0]) && !IsNumberSpace(s[|s| - 1])
    ensures Strip(s) == s
  {
    assert TrimStart(s) == s;
  }

  /** Without whitespace at either end, `int()` reads the string itself. */
  lemma ParseIntUnspaced(s: string)
    requires s != [] && !IsNumberSpace(s[0]) && !IsNumberSpace(s[|s| - 1])
    ensures ParseInt(s) == SignedInteger(s)
  {
    StripUnspaced(s);
  }

  /** A string of digits is a signless integer literal worth its decimal value. */
  lemma DigitsInteger(d: string)
    requires d != [] && forall k | 0 <= k < |d| :: IsDigit(d[k])
    ensures SignedInteger(d) == Some(PartValue(d))
  {
    assert !IsSign(d[0]);
    AllDigitsIsDigitPart(d);
  }

  /** `float()` reads digits, a point and digits as the exact decimal value they spell. */
  lemma ParseFloatDecimal(w: string, f: string)
    requires w != [] && forall k | 0 <= k < |w| :: IsDigit(w[k])
    requires f != [] && forall k | 0 <= k < |f| :: IsDigit(f[k])
    ensures ParseFloat(w + "." + f) == Some(DecimalValue(PartValue(w), PartValue(f), |f|))
  {
    var s := w + "." + f;
    assert s[0] == w[0] && s[|s| - 1] == f[|f| - 1];
    DigitIsNotSpace(s[0]);
    DigitIsNotSpace(s[|s| - 1]);
    ParseFloatUnsigned(s);
    DecimalLiteral(w, f);
  }

  /** Without whitespace at either end and without a sign, `float()` reads the unsigned literal. */
  lemma ParseFloatUnsigned(s: string)
    requires s != [] && !IsNumberSpace(s[0]) && !IsNumberSpace(s[|s| - 1]) && !IsSign(s[0])
    ensures ParseFloat(s) == UnsignedFloat(s)
  {
    StripUnspaced(s);
  }

  /** Digits, a point and digits make a float literal worth `whole + fraction / 10^|fraction|`. */
  lemma DecimalLiteral(w: string, f: string)
    requires w != [] && forall k | 0 <= k < |w| :: IsDigit(w[k])
    requires f != [] && forall k | 0 <= k < |f| :: IsDigit(f[k])
    ensures UnsignedFloat(w + "." + f)
         == Some(DecimalValue(PartValue(w), PartValue(f), |f|))
  {
    NoExponentInDecimal(w, f);
    AllDigitsIsDigitPart(w);
    AllDigitsIsDigitPart(f);
    DecimalMantissa(w, f);
    DigitCountOfDigits(f);
  }

  lemma NoExponentInDecimal(w: string, f: string)
    requires forall k | 0 <= k < |w| :: IsDigit(w[k])
    requires forall k | 0 <= k < |f| :: IsDigit(f[k])
    ensures UnsignedFloat(w + "." + f) == Mantissa(w + "." + f)
  {
    var s := w + "." + f;
    forall k | 0 <= k < |s| ensures s[k] != 'e' && s[k] != 'E' {
      if k < |w| {
        assert s[k] == w[k];
      } else if k > |w| {
        assert s[k] == f[k - |w| - 1];
      }
    }
    NoExponentLiteral(s);
  }

  /** Without an exponent mark, a float literal is its mantissa. */
  lemma NoExponentLiteral(s: string)
    requires forall k | 0 <= k < |s| :: s[k] != 'e' && s[k] != 'E'
    ensures UnsignedFloat(s) == Mantissa(s)
  {
    assert ExponentIndex(s) == |s|;
    assert s[..|s|] == s;
  }

  lemma DecimalMantissa(w: string, f: string)
    requires forall k | 0 <= k < |w| :: IsDigit(w[k])
    requires IsDigitPart(w) && IsDigitPart(f)
    ensures Mantissa(w + "." + f)
         == Some(DecimalValue(PartValue(w), PartValue(f), DigitCount(f)))
  {
    var s := w + "." + f;
    assert forall k | 0 <= k < |w| :: s[k] != '.' by {
      forall k | 0 <= k < |w| ensures s[k] != '.' {
        assert s[k] == w[k];
      }
    }
    IndexOfFirst(s, '.', |w|);
    var whole, fraction := s[..|w|], s[|w| + 1..];
    assert whole == w;
    assert fraction == f;
    assert IsDigitPart(whole) && IsDigitPart(fraction);
  }

  lemma {:induction false} IndexOfFirst(s: string, c: char, i: nat)
    requires i < |s| && s[i] == c
    requires forall k | 0 <= k < i :: s[k] != c
    ensures IndexOf(s, c) == i
  {
    if i > 0 {
      IndexOfFirst(s[1..], c, i - 1);
    }
  }

  lemma {:induction false} DigitCountOfDigits(s: string)
    requires forall k | 0 <= k < |s| :: IsDigit(s[k])
    ensures DigitCount(s) == |s|
  {
    if s != [] {
      DigitCountOfDigits(s[..|s| - 1]);
    }
  }
}

=== FILE: py_text.dfy ===
/**
 * Python's whitespace handling as the cleaning code meets it: `str.split()`
 * with no argument, and the stripping that `int()` and `float()` do around
 * their argument before parsing it.
 */
module PyText {

  /** `str.isspace()`: the characters `str.split()` separates on. */
  predicate IsSpace(c: char) {
    ('\t' <= c <= '\r') || ('\U{1C}' <= c <= ' ') || c == '\U{85}' || c == '\U{A0}'
    || c == '\U{1680}' || ('\U{2000}' <= c <= '\U{200A}') || c == '\U{2028}' || c == '\U{2029}'
    || c == '\U{202F}' || c == '\U{205F}' || c == '\U{3000}'
  }

  /**
   * The whitespace `int()` and `float()` strip from both ends of their
   * argument: every `str.isspace()` character except the ASCII separators
   * U+001C..U+001F, which the numeric parsers do not skip.
   */
  predicate IsNumberSpace(c: char) {
    IsSpace(c) && !('\U{1C}' <= c <= '\U{1F}')
  }

  /** A word of `str.split()`: non-empty and free of whitespace. */
  predicate IsWord(w: string) {
    w != [] && forall k | 0 <= k < |w| :: !IsSpace(w[k])
  }

  /** `s` without its leading number-whitespace. */
  function TrimStart(s: string): (t: string)
    ensures |t| <= |s| && t == s[|s| - |t|..]
    ensures t == [] || !IsNumberSpace(t[0])
  {
    if s != [] && IsNumberSpace(s[0]) then TrimStart(s[1..]) else s
  }

  /** `s` without its trailing number-whitespace. */
  function TrimEnd(s: string): (t: string)
    ensures |t| <= |s| && t == s[..|t|]
    ensures t == [] || !IsNumberSpace(t[|t| - 1])
  {
    if s != [] && IsNumberSpace(s[|s| - 1]) then TrimEnd(s[..|s| - 1]) else s
  }

  /**
   * What `int()` and `float()` parse: `s` with the whitespace at both ends
   * cut off, beginning and ending with a non-space character.
   */
  function Strip(s: string): (t: string)
    ensures |t| <= |s|
    ensures t == [] || (!IsNumberSpace(t[0]) && !IsNumberSpace(t[|t| - 1]))
  {
    TrimEnd(TrimStart(s))
  }

  /** TrimStart removes only whitespace. */
  lemma {:induction false} TrimStartRemovesSpace(s: string)
    ensures forall k | 0 <= k < |s| - |TrimStart(s)| :: IsNumberSpace(s[k])
  {
    if s != [] && IsNumberSpace(s[0]) {
      var t := s[1..];
      TrimStartRemovesSpace(t);
      assert TrimStart(s) == TrimStart(t);
      forall k | 0 <= k < |s| - |TrimStart(s)| ensures IsNumberSpace(s[k]) {
        if k > 0 {
          assert s[k] == t[k - 1];
        }
      }
    }
  }

  /** TrimEnd removes only whitespace. */
  lemma {:induction false} TrimEndRemovesSpace(s: string)
    ensures forall k | |TrimEnd(s)| <= k < |s| :: IsNumberSpace(s[k])
  {
    if s != [] && IsNumberSpace(s[|s| - 1]) {
      TrimEndRemovesSpace(s[..|s| - 1]);
    }
  }

  /**
   * `Strip(s)` is the infix of `s` that starts after its leading whitespace
   * and is followed only by whitespace.
   */
  lemma StripShape(s: string)
    ensures var lead := |s| - |TrimStart(s)|; var t := Strip(s);
      lead + |t| <= |s| && (forall k | 0 <= k < |t| :: t[k] == s[lead + k])
      && (forall k | 0 <= k < lead :: IsNumberSpace(s[k]))
      && (forall k | lead + |t| <= k < |s| :: IsNumberSpace(s[k]))
  {
    StripInfix(s);
    TrimStartRemovesSpace(s);
    StripTrailingSpace(s);
  }

  /** A non-space character of `s` lies inside `Strip(s)`, at the same place shifted by the leading whitespace. */
  lemma StripKeepsNonSpace(s: string, i: nat)
    requires i < |s| && !IsNumberSpace(s[i])
    ensures var lead := |s| - |TrimStart(s)|;
      lead <= i < lead + |Strip(s)| && Strip(s)[i - lead] == s[i]
  {
    StripShape(s);
    var lead := |s| - |TrimStart(s)|;
    NonSpaceBetween(s, lead, |Strip(s)|, i);
  }

  /** One whitespace character before a string that starts with no whitespace is stripped. */
  lemma TrimStartOneSpace(c: char, d: string)
    requires IsNumberSpace(c) && d != [] && !IsNumberSpace(d[0])
    ensures Strip([c] + d) == Strip(d)
  {
    assert ([c] + d)[1..] == d;
  }

  /** One whitespace character after a string without whitespace at its ends is stripped. */
  lemma TrimEndOneSpace(d: string, c: char)
    requires IsNumberSpace(c) && d != [] && !IsNumberSpace(d[0]) && !IsNumberSpace(d[|d| - 1])
    ensures Strip(d + [c]) == d
  {
    var s := d + [c];
    assert s[0] == d[0];
    assert TrimStart(s) == s;
    assert s[..|s| - 1] == d;
    assert TrimEnd(s) == TrimEnd(d);
    assert TrimEnd(d) == d;
  }

  /** `Strip(s)` holds every non-space character of `s`. */
  lemma StripHoldsNonSpace(s: string, i: nat)
    requires i < |s| && !IsNumberSpace(s[i])
    ensures s[i] in Strip(s)
  {
    StripKeepsNonSpace(s, i);
  }

  /** A non-space character of `s` lies between a run of leading and a run of trailing whitespace. */
  lemma NonSpaceBetween(s: string, lead: nat, len: nat, i: nat)
    requires lead + len <= |s|
    requires forall k | 0 <= k < lead :: IsNumberSpace(s[k])
    requires forall k | lead + len <= k < |s| :: IsNumberSpace(s[k])
    requires i < |s| && !IsNumberSpace(s[i])
    ensures lead <= i < lead + len
  {
  }

  lemma StripInfix(s: string)
    ensures |s| - |TrimStart(s)| + |Strip(s)| <= |s|
    ensures forall k | 0 <= k < |Strip(s)| :: Strip(s)[k] == s[|s| - |TrimStart(s)| + k]
  {
    var u := TrimStart(s);
    PrefixOfSuffix(s, u, TrimEnd(u));
  }

  lemma StripTrailingSpace(s: string)
    ensures forall k | |s| - |TrimStart(s)| + |Strip(s)| <= k < |s| :: IsNumberSpace(s[k])
  {
    var u := TrimStart(s);
    TrimEndRemovesSpace(u);
    SpaceAfterPrefixOfSuffix(s, u, |TrimEnd(u)|);
  }

  /** A prefix `t` of a suffix `u` of `s` is the infix of `s` where `u` starts. */
  lemma PrefixOfSuffix(s: string, u: string, t: string)
    requires |u| <= |s| && u == s[|s| - |u|..]
    requires |t| <= |u| && t == u[..|t|]
    ensures |s| - |u| + |t| <= |s| && forall k | 0 <= k < |t| :: t[k] == s[|s| - |u| + k]
  {
    var lead := |s| - |u|;
    forall k | 0 <= k < |t| ensures t[k] == s[lead + k] {
      assert t[k] == u[k] && u[k] == s[lead + k];
    }
  }

  /** Whitespace at the end of a suffix `u` of `s` is whitespace at the end of `s`. */
  lemma SpaceAfterPrefixOfSuffix(s: string, u: string, n: nat)
    requires |u| <= |s| && u == s[|s| - |u|..]
    requires forall k | n <= k < |u| :: IsNumberSpace(u[k])
    ensures forall k | |s| - |u| + n <= k < |s| :: IsNumberSpace(s[k])
  {
    var lead := |s| - |u|;
    forall k | lead + n <= k < |s| ensures IsNumberSpace(s[k]) {
      assert s[k] == u[k - lead];
    }
  }

  /** The length of the word at the start of `s`: the characters before its first whitespace. */
  function WordLength(s: string): (n: nat)
    ensures n <= |s|
    ensures forall k | 0 <= k < n :: !IsSpace(s[k])
    ensures n == |s| || IsSpace(s[n])
  {
    if s == [] || IsSpace(s[0]) then 0 else 1 + WordLength(s[1..])
  }

  /** `s.split()`: the maximal runs of non-whitespace characters of `s`, in order. */
  function Split(s: string): (words: seq<string>)
    ensures forall i | 0 <= i < |words| :: IsWord(words[i])
    ensures Concat(words) == RemoveSpace(s)
    decreases |s|
  {
    if s == [] then []
    else if IsSpace(s[0]) then Split(s[1..])
    else
      var n := WordLength(s);
      var rest := Split(s[n..]);
      RemoveSpaceWord(s, n);
      assert ([s[..n]] + rest)[1..] == rest;
      [s[..n]] + rest
  }

  /** `"".join(words)`. */
  function Concat(words: seq<string>): string {
    if words == [] then [] else words[0] + Concat(words[1..])
  }

  /** The characters of `s` that are not whitespace, in order. */
  function RemoveSpace(s: string): string {
    if s == [] then []
    else if IsSpace(s[0]) then RemoveSpace(s[1..])
    else [s[0]] + RemoveSpace(s[1..])
  }

  /** A run of `n` non-space characters at the start of `s` survives whole. */
  lemma {:induction false} RemoveSpaceWord(s: string, n: nat)
    requires n <= |s| && forall k | 0 <= k < n :: !IsSpace(s[k])
    ensures RemoveSpace(s) == s[..n] + RemoveSpace(s[n..])
    decreases n
  {
    if n == 0 {
      assert s[..0] == [] && s[0..] == s;
    } else {
      RemoveSpaceWord(s[1..], n - 1);
      assert s[1..][n - 1..] == s[n..];
      assert s[..n] == [s[0]] + s[1..][..n - 1];
    }
  }

  /** `" ".join(words)`. */
  function JoinWords(words: seq<string>): string {
    if words == [] then []
    else if |words| == 1 then words[0]
    else words[0] + " " + JoinWords(words[1..])
  }

  lemma {:induction false} WordLengthOfWord(w: string, tail: string)
    requires IsWord(w)
    requires tail == [] || IsSpace(tail[0])
    ensures WordLength(w + tail) == |w|
  {
    if |w| > 1 {
      assert (w + tail)[1..] == w[1..] + tail;
      WordLengthOfWord(w[1..], tail);
    } else {
      assert (w + tail)[1..] == tail;
    }
  }

  /** Splitting words joined by single spaces gives the words back. */
  lemma {:induction false} SplitJoin(words: seq<string>)
    requires forall i | 0 <= i < |words| :: IsWord(words[i])
    ensures Split(JoinWords(words)) == words
  {
    if words != [] {
      var w := words[0];
      var tail := if |words| == 1 then [] else " " + JoinWords(words[1..]);
      assert JoinWords(words) == w + tail;
      WordLengthOfWord(w, tail);
      assert (w + tail)[..|w|] == w;
      assert (w + tail)[|w|..] == tail;
      if |words| == 1 {
        assert Split(tail) == [];
      } else {
        SplitJoin(words[1..]);
        assert tail[1..] == JoinWords(words[1..]);
        assert Split(tail) == words[1..];
      }
      assert Split(w + tail) == [w] + Split(tail);
      assert [w] + words[1..] == words;
    }
  }
}

=== FILE: py_values.dfy ===
/**
 * The Python values the cleaning code handles: the exceptions it can raise,
 * a Result that carries them, and the decoded JSON records the EC3 wrapper
 * returns (nested dicts, lists, strings, numbers, booleans and None).
 */
module PyValues {

  datatype Option<T> = None | Some(value: T)

  /** The Python exceptions the modelled code can raise. */
  datatype PyError =
    | KeyError(key: string)  // a dict key or a DataFrame column label that is absent
    | TypeError              // subscripting a non-dict with a string; the mean of a text column
    | AttributeError         // `.split()` on a value that is not a str
    | IndexError             // a list index past the end
    | ValueError             // int() or float() refused its argument

  /** The outcome of Python code that either returns a value or raises. */
  datatype Result<T> = Ok(value: T) | Err(error: PyError) {
    predicate IsFailure() {
      Err?
    }

    function PropagateFailure<U>(): Result<U>
      requires Err?
    {
      Err(error)
    }

    function Extract(): T
      requires Ok?
    {
      value
    }
  }

  /** A decoded JSON value; JSON numbers, integral or not, are reals here. */
  datatype Json =
    | Null
    | Bool(b: bool)
    | Number(x: real)
    | Str(s: string)
    | Array(items: seq<Json>)
    | Object(fields: map<string, Json>)

  /** Python truthiness: None, False, 0, "", [] and {} are falsy. */
  predicate IsTruthy(v: Json) {
    match v
    case Null => false
    case Bool(b) => b
    case Number(x) => x != 0.0
    case Str(s) => s != []
    case Array(items) => items != []
    case Object(fields) => fields != map[]
  }

  /**
   * `v[key]` with a string key: the entry of a dict, KeyError when the dict
   * lacks the key, TypeError for every other kind of value.
   */
  function GetItem(v: Json, key: string): Result<Json> {
    match v
    case Object(fields) => if key in fields then Ok(fields[key]) else Err(KeyError(key))
    case _ => Err(TypeError)
  }

  /** `v.split()`: defined on str only; AttributeError otherwise. */
  function AsStr(v: Json): Result<string> {
    if v.Str? then Ok(v.s) else Err(AttributeError)
  }
}

=== FILE: records.dfy ===
/**
 * The conversion of the material records returned by the EC3 query into the
 * rows the dashboard charts: every compressive strength brought to psi and
 * rounded to the nearest 500 psi, the GWP read from the front of its
 * "value unit" string, and the plant owner's name or "Unknown". Records whose
 * strength unit is not MPa, psi or ksi are skipped; any other irregularity
 * in a record raises and ends the conversion.
 */
module Records {
  import opened PyValues
  import opened PyText
  import opened PyNumbers

  const STRENGTH_KEY := "concrete_compressive_strength_28d"
  const GWP_KEY := "gwp"
  const PLANT_KEY := "plant_or_group"
  const OWNER_KEY := "owned_by"
  const NAME_KEY := "name"

  /** Pounds per square inch in one megapascal, as the dashboard writes it. */
  const MPA_TO_PSI: real := 145.03773773

  /** The spelling of a record's missing plant owner. */
  const UNKNOWN_PLANT := "Unknown"

  /**
   * One entry of the converted records: "Compressive Strength [psi]",
   * "GWP [kgCO2e]" and "Plant".
   */
  datatype Row = Row(strength: int, gwp: real, plant: string)

  /** The strength units the conversion knows. */
  predicate IsKnownUnit(unit: string) {
    unit == "MPa" || unit == "psi" || unit == "ksi"
  }

  /** A strength given in `unit`, in psi. */
  function ToPsi(value: real, unit: string): real
    requires IsKnownUnit(unit)
  {
    if unit == "MPa" then value * MPA_TO_PSI
    else if unit == "psi" then value
    else value * 1000.0
  }

  /**
   * `int(round(psi / 500.0) * 500.0)`: a multiple of 500 at most 250 away
   * from `psi`; of two equally near multiples, the one that is an even
   * multiple of 500.
   */
  function RoundToBucket(psi: real): (r: int)
    ensures r % 500 == 0
    ensures -250.0 <= psi - r as real <= 250.0
    ensures (psi - r as real == 250.0 || r as real - psi == 250.0) ==> (r / 500) % 2 == 0
  {
    500 * RoundHalfEven(psi / 500.0)
  }

  /** No multiple of 500 lies nearer to `psi` than its bucket. */
  lemma NearestBucket(psi: real, k: int)
    ensures var d := psi - RoundToBucket(psi) as real; var e := psi - (500 * k) as real;
      (if d < 0.0 then -d else d) <= (if e < 0.0 then -e else e)
  {
    var n := RoundHalfEven(psi / 500.0);
    if k != n {
      assert k <= n - 1 || k >= n + 1;
    }
  }

  /** A strength that is already a multiple of 500 psi stays as it is. */
  lemma BucketOfMultiple(k: int)
    ensures RoundToBucket((500 * k) as real) == 500 * k
  {
    var psi := (500 * k) as real;
    assert psi / 500.0 == k as real;
    RoundHalfEvenUnique(psi / 500.0, k);
  }

  /** `rec["concrete_compressive_strength_28d"].split()`. */
  function StrengthTokens(rec: Json): Result<seq<string>> {
    var field :- GetItem(rec, STRENGTH_KEY);
    var text :- AsStr(field);
    Ok(Split(text))
  }

  /** `rec["plant_or_group"]["owned_by"]["name"]`, or the exception a lookup raises. */
  function OwnerName(rec: Json): Result<Json> {
    var group :- GetItem(rec, PLANT_KEY);
    var owner :- GetItem(group, OWNER_KEY);
    GetItem(owner, NAME_KEY)
  }

  /**
   * The owner's name, replaced by "Unknown" when it is falsy or not a str.
   * A failed lookup raises its exception; a non-empty str name is passed
   * through unchanged; every other name gives "Unknown". The label is never
   * empty, and it is a name the record holds whenever it is not "Unknown".
   */
  function PlantName(rec: Json): (r: Result<string>)
    ensures r.Err? <==> OwnerName(rec).Err?
    ensures r.Err? ==> r.error == OwnerName(rec).error
    ensures OwnerName(rec).Ok? && OwnerName(rec).value.Str? && OwnerName(rec).value.s != [] ==>
      r == Ok(OwnerName(rec).value.s)
    ensures OwnerName(rec).Ok? && !(OwnerName(rec).value.Str? && OwnerName(rec).value.s != []) ==>
      r == Ok(UNKNOWN_PLANT)
    ensures r.Ok? ==> r.value != []
    ensures r.Ok? && r.value != UNKNOWN_PLANT ==>
      GetItem(rec, PLANT_KEY).Ok? && GetItem(rec.fields[PLANT_KEY], OWNER_KEY).Ok?
      && GetItem(rec.fields[PLANT_KEY].fields[OWNER_KEY], NAME_KEY) == Ok(Str(r.value))
  {
    var name :- OwnerName(rec);
    if !IsTruthy(name) then Ok(UNKNOWN_PLANT)
    else if !name.Str? then Ok(UNKNOWN_PLANT)
    else Ok(name.s)
  }

  /** `float(rec["gwp"].split()[0])`. */
  function GwpValue(rec: Json): Result<real> {
    var field :- GetItem(rec, GWP_KEY);
    var text :- AsStr(field);
    var words := Split(text);
    if words == [] then Err(IndexError) else FloatOf(words[0])
  }

  /**
   * One pass of the conversion loop: Ok(Some(row)) for a converted record,
   * Ok(None) for a record skipped for its unit, Err for the exception that
   * ends the loop. A record is skipped exactly when its strength splits into
   * at least two words and the second is no known unit; its plant and GWP
   * are then never looked at. A converted record's strength is its value
   * brought to psi and rounded to within 250 psi; its GWP and plant are
   * those its fields give.
   */
  function ConvertOne(rec: Json): (r: Result<Option<Row>>)
    ensures r == Ok(None) <==>
      StrengthTokens(rec).Ok? && |StrengthTokens(rec).value| >= 2
      && !IsKnownUnit(StrengthTokens(rec).value[1])
    ensures r.Ok? && r.value.Some? <==>
      StrengthTokens(rec).Ok? && |StrengthTokens(rec).value| >= 2
      && IsKnownUnit(StrengthTokens(rec).value[1]) && FloatOf(StrengthTokens(rec).value[0]).Ok?
      && PlantName(rec).Ok? && GwpValue(rec).Ok?
    ensures r.Ok? && r.value.Some? ==>
      var unit := StrengthTokens(rec).value[1];
      var value := FloatOf(StrengthTokens(rec).value[0]).value;
      var row := r.value.value;
      row.strength == RoundToBucket(ToPsi(value, unit))
      && row.strength % 500 == 0
      && (unit == "psi" ==> -250.0 <= value - row.strength as real <= 250.0)
      && (unit == "ksi" ==> -250.0 <= value * 1000.0 - row.strength as real <= 250.0)
      && (unit == "MPa" ==> -250.0 <= value * MPA_TO_PSI - row.strength as real <= 250.0)
      && row.gwp == GwpValue(rec).value && row.plant == PlantName(rec).value
  {
    var tokens :- StrengthTokens(rec);
    if |tokens| < 2 then Err(IndexError)
    else if !IsKnownUnit(tokens[1]) then Ok(None)
    else
      var value :- FloatOf(tokens[0]);
      var strength := RoundToBucket(ToPsi(value, tokens[1]));
      var plant :- PlantName(rec);
      var gwp :- GwpValue(rec);
      Ok(Some(Row(strength, gwp, plant)))
  }

  /**
   * The outcome of a loop whose passes had the outcomes `passes`: the rows
   * of the passes that gave one, in order, or the exception of the first
   * pass that raised. There is at most one row per pass.
   */
  function Collect<T>(passes: seq<Result<Option<T>>>): (r: Result<seq<T>>)
    ensures r.Ok? ==> |r.value| <= |passes|
  {
    if passes == [] then Ok([])
    else
      var rows :- Collect(passes[..|passes| - 1]);
      var one :- passes[|passes| - 1];
      Ok(if one.Some? then rows + [one.value] else rows)
  }

  /** The outcome of each pass of the conversion loop over `recs`. */
  function Passes(recs: seq<Json>): (passes: seq<Result<Option<Row>>>)
    ensures |passes| == |recs|
  {
    seq(|recs|, j requires 0 <= j < |recs| => ConvertOne(recs[j]))
  }

  /** `converted_records` after the loop over `recs`, or the first exception it raises. */
  function Converted(recs: seq<Json>): Result<seq<Row>> {
    Collect(Passes(recs))
  }

  /** A pass that raises, after the passes before it went through, ends the loop with its exception. */
  lemma {:induction false} FirstErrorEndsLoop<T>(passes: seq<Result<Option<T>>>, i: nat)
    requires i < |passes| && Collect(passes[..i]).Ok?
    ensures passes[i].Err? ==> Collect(passes) == Err(passes[i].error)
    decreases |passes|
  {
    if passes[i].Err? {
      if i == |passes| - 1 {
        assert passes[..i] == passes[..|passes| - 1];
      } else {
        var front := passes[..|passes| - 1];
        assert front[..i] == passes[..i] && front[i] == passes[i];
        FirstErrorEndsLoop(front, i);
      }
    }
  }

  /** One more pass: it raises and ends the loop, is skipped, or appends its row. */
  lemma CollectStep<T>(passes: seq<Result<Option<T>>>, i: nat, rows: seq<T>)
    requires i < |passes| && Collect(passes[..i]) == Ok(rows)
    ensures passes[i].Err? ==> Collect(passes) == Err(passes[i].error)
    ensures passes[i] == Ok(None) ==> Collect(passes[..i + 1]) == Ok(rows)
    ensures passes[i].Ok? && passes[i].value.Some? ==>
      Collect(passes[..i + 1]) == Ok(rows + [passes[i].value.value])
  {
    FirstErrorEndsLoop(passes, i);
    assert passes[..i + 1][..i] == passes[..i];
  }

  /** The loop finishes exactly when no pass raises. */
  lemma {:induction false} CollectOkIff<T>(passes: seq<Result<Option<T>>>)
    ensures Collect(passes).Ok? <==> forall j | 0 <= j < |passes| :: passes[j].Ok?
    decreases |passes|
  {
    if passes != [] {
      var front := passes[..|passes| - 1];
      CollectOkIff(front);
      assert forall j | 0 <= j < |front| :: front[j] == passes[j];
    }
  }

  /** The loop over two batches is the loop over the first batch, then the second. */
  lemma {:induction false} CollectAppend<T>(a: seq<Result<Option<T>>>, b: seq<Result<Option<T>>>)
    ensures Collect(a + b) ==
      match Collect(a)
      case Err(e) => Err(e)
      case Ok(front) =>
        match Collect(b)
        case Err(e) => Err(e)
        case Ok(back) => Ok(front + back)
    decreases |b|
  {
    if b == [] {
      assert a + b == a;
      if Collect(a).Ok? {
        assert Collect(a).value + [] == Collect(a).value;
      }
    } else {
      var b' := b[..|b| - 1];
      assert (a + b)[..|a + b| - 1] == a + b';
      assert (a + b)[|a + b| - 1] == b[|b| - 1];
      CollectAppend(a, b');
      if Collect(a).Ok? && Collect(b').Ok? {
        var one := b[|b| - 1];
        if one.Ok? && one.value.Some? {
          assert Collect(a).value + (Collect(b').value + [one.value.value])
              == Collect(a).value + Collect(b').value + [one.value.value];
        }
      }
    }
  }

  /** A loop whose every pass skips its record finishes with no rows. */
  lemma {:induction false} CollectAllSkipped<T>(passes: seq<Result<Option<T>>>)
    requires forall j | 0 <= j < |passes| :: passes[j] == Ok(None)
    ensures Collect(passes) == Ok([])
    decreases |passes|
  {
    if passes != [] {
      var front := passes[..|passes| - 1];
      assert forall j | 0 <= j < |front| :: front[j] == passes[j];
      CollectAllSkipped(front);
    }
  }

  /** The positions of the passes that gave a row. */
  function KeptIndices<T>(passes: seq<Result<Option<T>>>): (kept: seq<nat>)
    ensures |kept| <= |passes|
    ensures forall m | 0 <= m < |kept| :: kept[m] < |passes|
  {
    if passes == [] then []
    else
      var last := |passes| - 1;
      var r := passes[last];
      var front := KeptIndices(passes[..last]);
      if r.Ok? && r.value.Some? then front + [last] else front
  }

  /** The kept positions are increasing, and they are exactly the passes that gave a row. */
  lemma {:induction false} KeptIndicesOrdered<T>(passes: seq<Result<Option<T>>>)
    ensures forall m, n | 0 <= m < n < |KeptIndices(passes)| :: KeptIndices(passes)[m] < KeptIndices(passes)[n]
    ensures forall j | 0 <= j < |passes| :: (passes[j].Ok? && passes[j].value.Some?) <==> j in KeptIndices(passes)
    decreases |passes|
  {
    if passes != [] {
      var last := |passes| - 1;
      var front := passes[..last];
      KeptIndicesOrdered(front);
      assert forall j | 0 <= j < last :: front[j] == passes[j];
    }
  }

  /** The rows of a finished loop are, in order, the rows of the passes at `KeptIndices(passes)`. */
  lemma {:induction false} CollectRowsAt<T>(passes: seq<Result<Option<T>>>, rows: seq<T>)
    requires Collect(passes) == Ok(rows)
    ensures |rows| == |KeptIndices(passes)|
    ensures forall m | 0 <= m < |rows| :: passes[KeptIndices(passes)[m]] == Ok(Some(rows[m]))
    decreases |passes|
  {
    if passes != [] {
      var front := passes[..|passes| - 1];
      var last := |passes| - 1;
      var frontRows := Collect(front).value;
      CollectRowsAt(front, frontRows);
      var frontKept := KeptIndices(front);
      var kept := KeptIndices(passes);
      var r := passes[last];
      if r.Ok? && r.value.Some? {
        var x := r.value.value;
        assert rows == frontRows + [x];
        assert kept == frontKept + [last];
        forall m | 0 <= m < |rows| ensures passes[kept[m]] == Ok(Some(rows[m])) {
          if m < |frontRows| {
            assert kept[m] == frontKept[m] && rows[m] == frontRows[m];
            assert front[frontKept[m]] == passes[frontKept[m]];
          }
        }
      } else {
        assert rows == frontRows && kept == frontKept;
        forall m | 0 <= m < |rows| ensures passes[kept[m]] == Ok(Some(rows[m])) {
          assert front[frontKept[m]] == passes[frontKept[m]];
        }
      }
    }
  }

  /**
   * The rows of a finished loop are, in order, the rows of the passes at
   * `KeptIndices(passes)`; every other pass skipped its record.
   */
  lemma CollectRows<T>(passes: seq<Result<Option<T>>>, rows: seq<T>)
    requires Collect(passes) == Ok(rows)
    ensures |rows| == |KeptIndices(passes)|
    ensures forall m | 0 <= m < |rows| :: passes[KeptIndices(passes)[m]] == Ok(Some(rows[m]))
    ensures forall j | 0 <= j < |passes| && j !in KeptIndices(passes) :: passes[j] == Ok(None)
  {
    CollectOkIff(passes);
    KeptIndicesOrdered(passes);
    CollectRowsAt(passes, rows);
  }

  /**
   * The rows of the finished conversion loop are, in order, the rows of the
   * records at `KeptIndices(Passes(recs))`; every other record was skipped
   * for its unit; every strength is a multiple of 500 psi.
   */
  lemma ConvertedRows(recs: seq<Json>, rows: seq<Row>)
    requires Converted(recs) == Ok(rows)
    ensures |rows| == |KeptIndices(Passes(recs))| <= |recs|
    ensures forall m, n | 0 <= m < n < |rows| :: KeptIndices(Passes(recs))[m] < KeptIndices(Passes(recs))[n]
    ensures forall m | 0 <= m < |rows| ::
      ConvertOne(recs[KeptIndices(Passes(recs))[m]]) == Ok(Some(rows[m]))
    ensures forall j | 0 <= j < |recs| && j !in KeptIndices(Passes(recs)) :: ConvertOne(recs[j]) == Ok(None)
    ensures forall m | 0 <= m < |rows| :: rows[m].strength % 500 == 0
  {
    var passes := Passes(recs);
    CollectRows(passes, rows);
    KeptIndicesOrdered(passes);
    forall m | 0 <= m < |rows| ensures rows[m].strength % 500 == 0 {
      assert ConvertOne(recs[KeptIndices(passes)[m]]) == Ok(Some(rows[m]));
    }
  }

  /**
   * The body of the conversion loop for one record: None where the loop
   * continues past a record with an unknown strength unit, the new row
   * otherwise, or the exception the record raises.
   */
  method ConvertRecord(rec: Json) returns (res: Result<Option<Row>>)
    ensures res == ConvertOne(rec)
  {
    var splitStrength :- StrengthTokens(rec);
    if |splitStrength| < 2 {
      return Err(IndexError);
    }
    var concStrength: real;
    if splitStrength[1] == "MPa" {
      var value :- FloatOf(splitStrength[0]);
      concStrength := value * MPA_TO_PSI;
    } else if splitStrength[1] == "psi" {
      var value :- FloatOf(splitStrength[0]);
      concStrength := value;
    } else if splitStrength[1] == "ksi" {
      var value :- FloatOf(splitStrength[0]);
      concStrength := value * 1000.0;
    } else {
      return Ok(None);
    }
    assert concStrength == ToPsi(FloatOf(splitStrength[0]).value, splitStrength[1]);
    var roundedStrength := RoundToBucket(concStrength);
    var plantName :- PlantName(rec);
    var gwp :- GwpValue(rec);
    return Ok(Some(Row(roundedStrength, gwp, plantName)));
  }

  /**
   * The conversion loop: walks the records in order, skips those whose
   * strength unit is unknown, and appends one row per other record; returns
   * the first exception a record raises.
   */
  method ConvertRecords(matRecords: seq<Json>) returns (res: Result<seq<Row>>)
    ensures res == Converted(matRecords)
  {
    ghost var passes := Passes(matRecords);
    var converted: seq<Row> := [];
    for i := 0 to |matRecords|
      invariant Collect(passes[..i]) == Ok(converted)
    {
      var rec := matRecords[i];
      assert passes[i] == ConvertOne(rec);
      CollectStep(passes, i, converted);
      var newRow :- ConvertRecord(rec);
      if newRow.None? {
        continue;
      }
      converted := converted + [newRow.value];
    }
    assert passes[..|matRecords|] == passes;
    return Ok(converted);
  }

  /** `float(s)` as a statement that raises ValueError. */
  function FloatOf(s: string): Result<real> {
    if ParseFloat(s).None? then Err(ValueError) else Ok(ParseFloat(s).value)
  }

  /**
   * A GWP written as digits, a point, digits and a unit word reads as that
   * decimal, whatever the unit.
   */
  lemma GwpDecimal(rec: Json, w: string, f: string, unit: string)
    requires w != [] && forall k | 0 <= k < |w| :: IsDigit(w[k])
    requires f != [] && forall k | 0 <= k < |f| :: IsDigit(f[k])
    requires IsWord(unit)
    requires GetItem(rec, GWP_KEY) == Ok(Str(w + "." + f + " " + unit))
    ensures GwpValue(rec) == Ok(DecimalValue(PartValue(w), PartValue(f), |f|))
  {
    var number := w + "." + f;
    assert IsWord(number) by {
      assert forall k | 0 <= k < |number| :: number[k] == '.' || IsDigit(number[k]);
      forall k | 0 <= k < |number| ensures !IsSpace(number[k]) {
        if number[k] != '.' {
          DigitIsNotSpace(number[k]);
        }
      }
    }
    assert JoinWords([number, unit]) == number + " " + unit;
    SplitJoin([number, unit]);
    ParseFloatDecimal(w, f);
  }
}
